=== FILE: README.md ===
# Index-management reconciliation, modelled in Dafny

This project models the index-management reconciler of the Elasticsearch operator. For each index-management policy mapping of an Elasticsearch cluster, the reconciler keeps these scheduled jobs (Kubernetes CronJobs) in the cluster's namespace:

- a rollover job, `<cluster>-rollover-<mapping>`, when the mapping's policy has a hot phase;
- a delete (curation) job, `<cluster>-delete-<mapping>`, when the policy has a delete phase.

It also keeps one config map, `indexmanagement-scripts`, which holds the scripts those jobs run. It removes labelled cron jobs that no mapping calls for any more.

The model's modules follow the program:

- `Kube`: the Kubernetes objects the reconciler builds and compares, and the package constants.
- `Store`: the API client.
  - A class `Store<T>` holds the stored objects keyed by namespace and name, a script of outcomes and a log of calls.
  - Its five primitives (Create, Get, Update, Delete, List) are each specified by a pure step function over `StoreState<T>`.
  - The script stands in for everything else that touches the store. `Reject(Conflict)` is the version conflict a concurrent writer causes (its write itself is not modelled). `Reject(Other)` is a permission or network failure.
- `Strings`: the lexicographic order that `sets.String.List()` sorts by, and the decimal rendering used for `MIN_AGE`.
- `Sameness`: `areCronJobsSame` exactly as written, and the data comparison of the config map.
- `Converger`: the create-or-update protocol (`reconcileCronJob` and the body of `ReconcileCurationConfigmap`).
  - It is specified once, generically, as `CreateOrUpdate` = Create, then on "already exists" `Retry` over `AttemptStep`.
  - The imperative reconcilers are proved equal to it.
  - `ConvergerProperties` proves retry bounds, write confinement, idempotence and conflict behaviour about it.
- `Builder`: the policy inputs, the deterministic job names, `newCronJob`, and the decision each entry point makes before it touches the store (skip, fail, or build).
- `Orphans`: `RemoveCronJobsForMappings`, specified by `Cleanup`. The model covers the expected-name set, the labelled listing, and best-effort deletion of the difference in ascending name order.
- `IndexManagement`: the three exported entry points, and the properties that tie building, converging and cleanup together.

Three behaviours of the code that the model keeps as written:

- **Container count.** `areCronJobsSame` compares the stored job's container count with itself (reconcile.go line 235), evidently by mistake, so the count is never compared. It then indexes the desired job's containers by the stored job's indices. The model keeps the one-sided check rather than a two-sided comparison.
  - The Go index panic that results is the verdict `IndexOutOfRange`, reported by the converger as `Error.IndexPanic`.
  - `StoredJobPanicIff` and `StrippedJobNeverRepaired` state the consequences.
- **Failed deletes.** During orphan cleanup a not-found Delete is ignored and any other failed Delete is logged; neither is returned, and cleanup still reports success (reconcile.go lines 104-109). The model does the same.
- **Curation errors.** The curation entry point returns translation errors unwrapped and the rollover entry point wraps them. Wrapping is not modelled, so both return the same `Error` values.

## Model

| member | source | states |
|---|---|---|
| Kube.WithSchedule | internal/indexmanagement/reconcile.go:245-248 | the schedule is replaced and every other field of the job is kept |
| Kube.UnitFactors | internal/indexmanagement/reconcile.go:43-50 | the millisecond factors are 1000, 60000, 3600000, 86400000 and 604800000, all within uint64; the exec mode is octal 0777 |
| Store.CreateStep | internal/indexmanagement/reconcile.go:208-216 | Create succeeds exactly when not rejected and the key is absent, and then stores the object; an existing key gives AlreadyExists; a failure changes nothing; the call is logged |
| Store.GetStep | internal/indexmanagement/reconcile.go:219-222 | Get returns the stored object exactly when not rejected and the key is present; an absent key gives NotFound; objects unchanged |
| Store.UpdateStep | internal/indexmanagement/reconcile.go:224-225 | Update succeeds exactly when not rejected and the key is present, and then replaces the object; a failure changes nothing |
| Store.DeleteStep | internal/indexmanagement/reconcile.go:104-107 | Delete succeeds exactly when not rejected and the key is present, and then removes that key only; a failure changes nothing |
| Store.Listed | internal/indexmanagement/reconcile.go:77-91 | the listed names are exactly the names of objects in the namespace whose labels carry every selector label |
| Store.ListStep | internal/indexmanagement/reconcile.go:82-87 | List succeeds exactly when not rejected, returns the listed names and changes no object |
| Store.Store.Create | internal/indexmanagement/reconcile.go:208 | the client's Create takes the store exactly as CreateStep says |
| Store.Store.Get | internal/indexmanagement/reconcile.go:219 | the client's Get takes the store exactly as GetStep says |
| Store.Store.Update | internal/indexmanagement/reconcile.go:225 | the client's Update takes the store exactly as UpdateStep says |
| Store.Store.Delete | internal/indexmanagement/reconcile.go:104 | the client's Delete takes the store exactly as DeleteStep says |
| Store.Store.List | internal/indexmanagement/reconcile.go:82 | the client's List takes the store exactly as ListStep says |
| Strings.LessTotal | internal/indexmanagement/reconcile.go:93 | the name order is total on distinct strings (with LessIrreflexive and LessTransitive: a strict total order) |
| Strings.SortedNames | internal/indexmanagement/reconcile.go:92-93 | the difference is listed strictly ascending, each name once, and nothing else |
| Strings.SortedListUnique | internal/indexmanagement/reconcile.go:93 | the ascending listing of a set is unique, so the deletion order is determined by the set |
| Strings.FormatDecimal | internal/indexmanagement/reconcile.go:192 | base-10 rendering yields a non-empty digit string without a leading zero |
| Strings.DecimalRoundTrip | internal/indexmanagement/reconcile.go:192 | parsing the rendered digits gives back the number |
| Strings.FormatDecimalInjective | internal/indexmanagement/reconcile.go:192 | distinct minimum ages render to distinct MIN_AGE values |
| Sameness.AreCronJobsSame | internal/indexmanagement/reconcile.go:234-279 | the loop's verdict is CronJobVerdict, and the stored job adopts the desired schedule exactly when the check reaches a differing schedule |
| Sameness.ContainersVerdictIff | internal/indexmanagement/reconcile.go:253-277 | the container loop says same iff every stored container matches the desired one at its index, and panics iff the desired job runs out of containers first with all earlier ones matching |
| Sameness.CronJobSameIff | internal/indexmanagement/reconcile.go:234-279 | same iff placement, schedule and suspend (when both set) agree and each stored container matches the desired one at its index; no count equality, only that the stored job has no more containers than the desired one |
| Sameness.CronJobPanicIff | internal/indexmanagement/reconcile.go:253-254 | the check panics iff the earlier checks pass, the stored job has more containers and all shared positions match |
| Sameness.CountNeverCompared | internal/indexmanagement/reconcile.go:235-237 | a stored job with no containers is judged the same as any job it agrees with on placement, schedule and suspend |
| Sameness.SuspendComparedOnlyWhenBothSet | internal/indexmanagement/reconcile.go:249-251 | against a job whose suspend is unset, the stored suspend flag never changes the verdict |
| Sameness.SelfSame | internal/indexmanagement/reconcile.go:234-279 | with reflexive comparators every job is the same as itself |
| Sameness.ScheduleDriftDetected | internal/indexmanagement/reconcile.go:245-248 | a job differing only in schedule is judged different, and adopting the schedule makes the specs equal |
| Sameness.ConfigMapVerdict | internal/indexmanagement/reconcile.go:135 | the config map is the same iff the data maps are equal; it never panics |
| Converger.AdoptSpec | internal/indexmanagement/reconcile.go:224 | the written job keeps the stored metadata and carries the desired spec |
| Converger.AdoptData | internal/indexmanagement/reconcile.go:136 | the written config map keeps the stored metadata and carries the desired data |
| Converger.CronJobAttempt | internal/indexmanagement/reconcile.go:218-227 | one attempt (Get, sameness check, Update only when different) takes the store as AttemptStep says |
| Converger.ReconcileCronJob | internal/indexmanagement/reconcile.go:207-232 | the store and the result are exactly CreateOrUpdate with the cron-job comparison and at most five attempts |
| Converger.ConfigMapAttempt | internal/indexmanagement/reconcile.go:130-139 | one config-map attempt takes the store as AttemptStep says |
| Converger.ReconcileConfigMap | internal/indexmanagement/reconcile.go:122-141 | the store and the result are exactly CreateOrUpdate with the data comparison |
| ConvergerProperties.AttemptEffect | internal/indexmanagement/reconcile.go:218-227 | an attempt issues a Get, plus an Update of the adopted object only when the verdict is different, and always when a successful Get finds it different; a conflicting attempt changes nothing |
| ConvergerProperties.DifferentIsWritten | internal/indexmanagement/reconcile.go:217-228 | with no interference, a stored object judged different is fetched once, updated once with the desired state adopted, and the pass succeeds |
| ConvergerProperties.RetryAttempts | internal/indexmanagement/reconcile.go:217-228 | the update path makes between 1 and 5 attempts, and a second one only after a conflict |
| ConvergerProperties.RetryWrites | internal/indexmanagement/reconcile.go:217-228 | every call is a Get of the key or an Update with the adopted object, and the only possible change is that object replacing the stored one, on success |
| ConvergerProperties.RetryIdempotent | internal/indexmanagement/reconcile.go:223-227 | a stored object already the same is fetched once and neither written nor changed |
| ConvergerProperties.RetryExhausted | internal/indexmanagement/reconcile.go:217-231 | when every Update conflicts, exactly `steps` attempts are made, the conflict is returned and nothing changes |
| ConvergerProperties.CreateOrUpdateCalls | internal/indexmanagement/reconcile.go:207-217 | Create comes first; a successful Create stores the desired object, any failure other than AlreadyExists is returned at once, and at most five Gets follow |
| ConvergerProperties.SecondPassIdempotent | internal/indexmanagement/reconcile.go:207-228 | a second pass with the same desired object issues only Create and Get and changes nothing |
| ConvergerProperties.ConflictThenSuccess | internal/indexmanagement/reconcile.go:217-228 | a conflict on the first Update is retried: the object is fetched and written again and the pass succeeds |
| ConvergerProperties.ScheduleDriftCorrected | internal/indexmanagement/reconcile.go:223-225 | schedule drift is repaired by exactly one Update that changes only the schedule |
| Builder.RolloverAndDeleteNamesDiffer | internal/indexmanagement/reconcile.go:70-73 | within a cluster no rollover name equals a delete name |
| Builder.NamesDetermineMapping | internal/indexmanagement/reconcile.go:154 | within a cluster, equal job names of one kind mean the same mapping |
| Builder.HandleContainer | internal/indexmanagement/reconcile.go:163-169 | the container runs `bash -c <script>` for its kind and is otherwise unchanged |
| Builder.NewCronJob | internal/indexmanagement/reconcile.go:281-349 | the template: labelled metadata, one `indexmanagement` container with ES_SERVICE first, then the given env, the script command, the schedule, suspend unset, forbidden overlap, history limits 1, backoff 0, parallelism 1, restart never, 300s grace, the Linux-merged node selector and the tolerations, pull-if-not-present, the 32Mi/100m requests, the two volume mounts, the service account, the certs and scripts volumes (mode 0777) and the pod-template metadata |
| Builder.RolloverDesired | internal/indexmanagement/reconcile.go:144-170 | skip iff there is no hot phase; an invalid schedule or a failed serialization is an error; with a hot phase and a valid schedule, a failed encoding gives Serialization and a successful one gives exactly the template job named `<cluster>-rollover-<mapping>` with ES_SERVICE, PAYLOAD and POLICY_MAPPING |
| Builder.CurationDesired | internal/indexmanagement/reconcile.go:176-201 | skip iff there is no delete phase; an invalid schedule or min age is an error; with a delete phase and a valid schedule, a failed min age gives InvalidMinAge and a valid one gives exactly the template job named `<cluster>-delete-<mapping>` with POLICY_MAPPING and MIN_AGE as the base-10 rendering of the milliseconds, which reads back as them |
| Builder.ScriptsConfigMap | internal/indexmanagement/reconcile.go:113-114 | the config map is named indexmanagement-scripts in the cluster's namespace, carries the labels and holds the scripts |
| Orphans.PolicyFor | internal/indexmanagement/reconcile.go:68 | a present reference yields its policy; a missing one reads as a policy with no phases |
| Orphans.ExpectedNamesIff | internal/indexmanagement/reconcile.go:66-75 | a name is expected iff some mapping's policy has a hot phase and it is that mapping's rollover name, or has a delete phase and it is its delete name |
| Orphans.CollectExpected | internal/indexmanagement/reconcile.go:66-75 | the loop computes exactly the expected names |
| Orphans.DeleteAllCalls | internal/indexmanagement/reconcile.go:93-108 | the deletion loop issues one Delete per name, in order |
| Orphans.DeleteAllFrame | internal/indexmanagement/reconcile.go:93-108 | deletion only removes entries, and never one outside the namespace or not named |
| Orphans.DeleteAllFaultFree | internal/indexmanagement/reconcile.go:93-108 | without interference exactly the named keys are removed |
| Orphans.DeleteEach | internal/indexmanagement/reconcile.go:93-108 | the deletion loop takes the store as DeleteAll says; a failed Delete does not stop it |
| Orphans.RemoveCronJobsForMappings | internal/indexmanagement/reconcile.go:65-110 | the store and the result are exactly Cleanup |
| Orphans.CleanupOutcome | internal/indexmanagement/reconcile.go:65-110 | a failed List is the only error and then nothing is deleted; otherwise the calls are List then one Delete per orphan in ascending order, the orphans are the listed names not expected, expected or foreign-namespace jobs survive, and nothing is written |
| Orphans.CleanupRemovesExactlyOrphans | internal/indexmanagement/reconcile.go:65-110 | without interference cleanup leaves exactly the jobs that are outside the namespace, unlabelled or expected |
| IndexManagement.ReconcileRolloverCronjob | internal/indexmanagement/reconcile.go:144-174 | no hot phase: success and no store call; a build error: returned with no store call; otherwise CreateOrUpdate of the built rollover job |
| IndexManagement.ReconcileCurationCronjob | internal/indexmanagement/reconcile.go:176-205 | no delete phase: success and no store call; a build error: returned with no store call; otherwise CreateOrUpdate of the built delete job |
| IndexManagement.ReconcileCurationConfigmap | internal/indexmanagement/reconcile.go:112-142 | CreateOrUpdate of the scripts config map, compared by data |
| IndexManagement.ReconciledJobsSurviveCleanup | internal/indexmanagement/reconcile.go:65-75 | every job an entry point builds for a mapping has an expected name, so cleanup with the same mappings never removes or alters it |
| IndexManagement.BuiltJobSecondPassIdempotent | internal/indexmanagement/reconcile.go:207-232 | with reflexive comparators, reconciling a built job twice creates it once, and the second pass writes nothing |
| IndexManagement.ConfigMapSecondPassIdempotent | internal/indexmanagement/reconcile.go:122-141 | reconciling the scripts config map twice creates it once, and the second pass writes nothing |
| IndexManagement.ConfigMapDataReplaced | internal/indexmanagement/reconcile.go:135-137 | a stored config map with other data is overwritten once with the scripts, keeping its metadata |
| IndexManagement.StoredJobPanicIff | internal/indexmanagement/reconcile.go:253-254 | against a built job, the update path panics iff the stored job passes placement and schedule, has two or more containers and its first container matches; the store is then unchanged |
| IndexManagement.StrippedJobNeverRepaired | internal/indexmanagement/reconcile.go:235-237 | a stored job with no containers that agrees on placement and schedule is left as it is, although its containers differ from the built ones |

## Left out

- Logging (`log.Info`, `log.Error`) is not modelled: a failed Delete during cleanup is ignored, whether the code drops it (not found) or logs it (any other error).
- Owner references (`AddOwnerRefTo`) and `TypeMeta` (kind and API version) are not part of the modelled objects.
- The packaged image reference, `crontabScheduleFor`, `calculateConditions`, `calculateMillisForTimeUnit`, `EnsureLinuxNodeSelector` and the four comparators (`AreStringMapsSame`, `AreTolerationsSame`, `AreResourceRequementsSame`, `EnvValueEqual`) are parameters (`Collaborators`, `Comparators`): their bodies are not part of this model.
- JSON marshalling and base64 encoding of the rollover payload are one opaque parameter (`encodePayload`); the `rolloverConditions` field tags are not modelled.
- The script bundle `scriptMap` is a parameter of `ReconcileCurationConfigmap`.
- Error wrapping (`kverrors.Wrap`, `errCtx.Wrap`) is dropped: errors keep their classification only, and wrapping a nil error is taken to yield nil.
- The backoff delays of `retry.DefaultRetry` are not modelled; only its bound of five attempts is.
- Resource versions are not modelled: a version conflict is a scripted store outcome rather than a consequence of a stale read.
- List results are reduced to object names, which is all the cleanup reads from them.
- `resource.Quantity` values are kept as their text; pointer fields (history limits, backoff, parallelism, grace period, default mode) are plain integers; nil and empty slices and maps are not distinguished in `reflect.DeepEqual`, including the config map data compared at line 135.
- The `context.TODO()` arguments and cancellation are not modelled.
- Other actors' writes are not modelled: a scripted conflict leaves the stored object unchanged, so a retried attempt re-fetches the object the first one saw.
- `primaryShards` is an unbounded integer; the int32 width of the source plays no part since it is only passed to `calculateConditions`.
- Sameness.AreCronJobsSame: the Go runtime panic is an ordinary error value (`Error.IndexPanic`) returned by the update path, not a crash of the process.

=== FILE: builder.dfy ===
/**
 * The desired state: the policy inputs, the deterministic names of the
 * derived cron jobs, and the fixed cron-job template both kinds of job share.
 */
module Builder {
  import opened Wrappers
  import opened Kube
  import opened Strings
  import opened Sameness
  import opened Converger

  /** The hot phase's rollover thresholds; only calculateConditions reads them. */
  datatype HotPhase = HotPhase(maxAge: string, maxDocs: int, maxSize: string)

  datatype DeletePhase = DeletePhase(minAge: string)

  datatype Policy = Policy(pollInterval: string, hot: Option<HotPhase>, delete: Option<DeletePhase>)

  datatype Mapping = Mapping(name: string, policyRef: string)

  datatype Cluster = Cluster(name: string, namespace: string, nodeSelector: Labels, tolerations: seq<Toleration>)

  /** The payload of a rollover job, serialized as {"conditions": ...}. */
  datatype RolloverConditions = RolloverConditions(maxAge: string, maxDocs: int, maxSize: string)

  /** The two ways the job container is customised: which script it runs. */
  datatype JobKind = RolloverJob | DeleteJob

  /**
   * Helpers whose bodies are not part of this model, passed in as values:
   * the packaged image, the poll-interval-to-crontab and min-age-to-millis
   * translators (None is their error), the rollover-condition calculator, the
   * Linux node-selector merge, the JSON-then-base64 payload encoding (None is
   * a serialization error) and the field comparators.
   */
  datatype Collaborators = Collaborators(
    image: string,
    crontabScheduleFor: string -> Option<string>,
    calculateConditions: (Policy, int) -> RolloverConditions,
    calculateMillis: string -> Option<u64>,
    ensureLinuxNodeSelector: Labels -> Labels,
    encodePayload: RolloverConditions -> Option<string>,
    cmp: Comparators)

  function RolloverName(clusterName: string, mappingName: string): string {
    clusterName + "-rollover-" + mappingName
  }

  function DeleteName(clusterName: string, mappingName: string): string {
    clusterName + "-delete-" + mappingName
  }

  /** Within one cluster a rollover job's name is never a delete job's name. */
  lemma RolloverAndDeleteNamesDiffer(clusterName: string, m: string, m': string)
    ensures RolloverName(clusterName, m) != DeleteName(clusterName, m')
  {
    var i := |clusterName| + 1;
    assert RolloverName(clusterName, m)[i] == 'r';
    assert DeleteName(clusterName, m')[i] == 'd';
  }

  /** Within one cluster, distinct mappings get distinct job names of each kind. */
  lemma NamesDetermineMapping(clusterName: string, m: string, m': string)
    ensures RolloverName(clusterName, m) == RolloverName(clusterName, m') ==> m == m'
    ensures DeleteName(clusterName, m) == DeleteName(clusterName, m') ==> m == m'
  {
    var r, r' := RolloverName(clusterName, m), RolloverName(clusterName, m');
    if r == r' {
      assert m == r[|clusterName| + 10..] == r'[|clusterName| + 10..] == m';
    }
    var d, d' := DeleteName(clusterName, m), DeleteName(clusterName, m');
    if d == d' {
      assert m == d[|clusterName| + 8..] == d'[|clusterName| + 8..] == m';
    }
  }

  function ServiceUrl(clusterName: string): string {
    "https://" + clusterName + ":9200"
  }

  function ScriptPath(kind: JobKind): string {
    match kind
    case RolloverJob => "/tmp/scripts/rollover"
    case DeleteJob => "/tmp/scripts/delete"
  }

  /** The container customisation of each entry point: run its script through bash. */
  function HandleContainer(kind: JobKind, c: Container): (r: Container)
    ensures r.command == ["bash"] && r.args == ["-c", ScriptPath(kind)]
    ensures r.(command := c.command, args := c.args) == c
  {
    c.(command := ["bash"], args := ["-c", ScriptPath(kind)])
  }

  function RolloverEnv(payload: string, mappingName: string): seq<EnvVar> {
    [EnvVar("PAYLOAD", payload), EnvVar("POLICY_MAPPING", mappingName)]
  }

  function CurationEnv(mappingName: string, minAgeMillis: u64): seq<EnvVar> {
    [EnvVar("POLICY_MAPPING", mappingName), EnvVar("MIN_AGE", FormatDecimal(minAgeMillis as nat))]
  }

  /** newCronJob: the fixed template around one container. */
  function NewCronJob(
    clusterName: string, image: string, namespace: string, name: string, schedule: string,
    nodeSelector: Labels, tolerations: seq<Toleration>, envvars: seq<EnvVar>, kind: JobKind,
    ensureLinuxNodeSelector: Labels -> Labels): (job: CronJob)
    ensures job.meta == ObjectMeta(name, namespace, ImLabels)
    ensures |Containers(job)| == 1
    ensures var c := Containers(job)[0];
      c.name == "indexmanagement" && c.image == image &&
      c.env == [EnvVar("ES_SERVICE", ServiceUrl(clusterName))] + envvars &&
      c.command == ["bash"] && c.args == ["-c", ScriptPath(kind)]
    ensures job.spec.schedule == schedule && job.spec.suspend.None?
    ensures job.spec.concurrencyPolicy == ForbidConcurrent
    ensures job.spec.successfulJobsHistoryLimit == 1 && job.spec.failedJobsHistoryLimit == 1
    ensures job.spec.jobTemplate.backoffLimit == 0 && job.spec.jobTemplate.parallelism == 1
    ensures Pod(job).restartPolicy == RestartNever && Pod(job).terminationGracePeriodSeconds == 300
    ensures Pod(job).nodeSelector == ensureLinuxNodeSelector(nodeSelector) && Pod(job).tolerations == tolerations
    ensures Containers(job)[0].pullPolicy == PullIfNotPresent
    ensures Containers(job)[0].resources.requests == map["memory" := Quantity("32Mi"), "cpu" := Quantity("100m")]
    ensures Containers(job)[0].volumeMounts == [
      VolumeMount("certs", true, "/etc/indexmanagement/keys"), VolumeMount("scripts", false, "/tmp/scripts")]
    ensures Pod(job).serviceAccountName == clusterName
    ensures Pod(job).volumes == [
      Volume("certs", SecretVolume(clusterName)), Volume("scripts", ConfigMapVolume("indexmanagement-scripts", 0x1FF))]
    ensures job.spec.jobTemplate.templateMeta == job.meta
  {
    var base := Container(
      "indexmanagement", image, PullIfNotPresent,
      Resources(map["memory" := DefaultMemoryRequest, "cpu" := DefaultCpuRequest]),
      [EnvVar("ES_SERVICE", ServiceUrl(clusterName))] + envvars,
      [], [], []);
    var container := HandleContainer(kind, base).(volumeMounts := [
      VolumeMount("certs", true, "/etc/indexmanagement/keys"),
      VolumeMount("scripts", false, "/tmp/scripts")]);
    var pod := PodSpec(
      clusterName,
      [container],
      [Volume("certs", SecretVolume(clusterName)),
       Volume("scripts", ConfigMapVolume(IndexManagementConfigmap, FullExecMode))],
      ensureLinuxNodeSelector(nodeSelector),
      tolerations,
      RestartNever,
      300);
    var meta := ObjectMeta(name, namespace, ImLabels);
    CronJob(meta, CronJobSpec(
      ForbidConcurrent, JobHistoryLimitSuccess, JobHistoryLimitFailed, schedule, None,
      JobSpec(0, 1, meta, pod)))
  }

  /** What an entry point decides before touching the store. */
  datatype Desired = Skip | Fail(err: Error) | Build(job: CronJob)

  /** The rollover job for a mapping, if its policy has a hot phase and the translations succeed. */
  function RolloverDesired(collab: Collaborators, cluster: Cluster, policy: Policy, mapping: Mapping, primaryShards: int): (d: Desired)
    ensures d.Skip? <==> policy.hot.None?
    ensures policy.hot.Some? && collab.crontabScheduleFor(policy.pollInterval).None? ==> d == Fail(InvalidSchedule)
    ensures d.Fail? ==> d.err == InvalidSchedule || d.err == Serialization
    ensures var schedule := collab.crontabScheduleFor(policy.pollInterval);
      var payload := collab.encodePayload(collab.calculateConditions(policy, primaryShards));
      policy.hot.Some? && schedule.Some? ==>
        (payload.None? ==> d == Fail(Serialization)) &&
        (payload.Some? ==> d == Build(NewCronJob(cluster.name, collab.image, cluster.namespace,
          RolloverName(cluster.name, mapping.name), schedule.value, cluster.nodeSelector, cluster.tolerations,
          RolloverEnv(payload.value, mapping.name), RolloverJob, collab.ensureLinuxNodeSelector)))
    ensures d.Build? ==>
      var schedule := collab.crontabScheduleFor(policy.pollInterval);
      var payload := collab.encodePayload(collab.calculateConditions(policy, primaryShards));
      schedule.Some? && payload.Some? &&
      d.job.meta.name == RolloverName(cluster.name, mapping.name) && d.job.meta.namespace == cluster.namespace &&
      d.job.spec.schedule == schedule.value &&
      |Containers(d.job)| == 1 &&
      Containers(d.job)[0].args == ["-c", "/tmp/scripts/rollover"] &&
      Containers(d.job)[0].env == [
        EnvVar("ES_SERVICE", ServiceUrl(cluster.name)),
        EnvVar("PAYLOAD", payload.value),
        EnvVar("POLICY_MAPPING", mapping.name)]
  {
    if policy.hot.None? then Skip
    else
      match collab.crontabScheduleFor(policy.pollInterval)
      case None => Fail(InvalidSchedule)
      case Some(schedule) =>
        var conditions := collab.calculateConditions(policy, primaryShards);
        var name := RolloverName(cluster.name, mapping.name);
        match collab.encodePayload(conditions)
        case None => Fail(Serialization)
        case Some(payload) =>
          Build(NewCronJob(cluster.name, collab.image, cluster.namespace, name, schedule,
            cluster.nodeSelector, cluster.tolerations, RolloverEnv(payload, mapping.name), RolloverJob,
            collab.ensureLinuxNodeSelector))
  }

  /** The delete (curation) job for a mapping, if its policy has a delete phase and the translations succeed. */
  function CurationDesired(collab: Collaborators, cluster: Cluster, policy: Policy, mapping: Mapping): (d: Desired)
    ensures d.Skip? <==> policy.delete.None?
    ensures policy.delete.Some? && collab.crontabScheduleFor(policy.pollInterval).None? ==> d == Fail(InvalidSchedule)
    ensures d.Fail? ==> d.err == InvalidSchedule || d.err == InvalidMinAge
    ensures var schedule := collab.crontabScheduleFor(policy.pollInterval);
      policy.delete.Some? && schedule.Some? ==>
        var millis := collab.calculateMillis(policy.delete.value.minAge);
        (millis.None? ==> d == Fail(InvalidMinAge)) &&
        (millis.Some? ==> d == Build(NewCronJob(cluster.name, collab.image, cluster.namespace,
          DeleteName(cluster.name, mapping.name), schedule.value, cluster.nodeSelector, cluster.tolerations,
          CurationEnv(mapping.name, millis.value), DeleteJob, collab.ensureLinuxNodeSelector)))
    ensures d.Build? ==>
      var schedule := collab.crontabScheduleFor(policy.pollInterval);
      var millis := collab.calculateMillis(policy.delete.value.minAge);
      schedule.Some? && millis.Some? &&
      d.job.meta.name == DeleteName(cluster.name, mapping.name) && d.job.meta.namespace == cluster.namespace &&
      d.job.spec.schedule == schedule.value &&
      |Containers(d.job)| == 1 &&
      Containers(d.job)[0].args == ["-c", "/tmp/scripts/delete"] &&
      |Containers(d.job)[0].env| == 3 &&
      Containers(d.job)[0].env[..2] == [EnvVar("ES_SERVICE", ServiceUrl(cluster.name)), EnvVar("POLICY_MAPPING", mapping.name)] &&
      Containers(d.job)[0].env[2] == EnvVar("MIN_AGE", FormatDecimal(millis.value as nat)) &&
      (forall i :: 0 <= i < |Containers(d.job)[0].env[2].value| ==> IsDigit(Containers(d.job)[0].env[2].value[i])) &&
      ParseDecimal(Containers(d.job)[0].env[2].value) == millis.value as nat
  {
    if policy.delete.None? then Skip
    else
      match collab.crontabScheduleFor(policy.pollInterval)
      case None => Fail(InvalidSchedule)
      case Some(schedule) =>
        match collab.calculateMillis(policy.delete.value.minAge)
        case None => Fail(InvalidMinAge)
        case Some(minAgeMillis) =>
          var name := DeleteName(cluster.name, mapping.name);
          var job := NewCronJob(cluster.name, collab.image, cluster.namespace, name, schedule,
            cluster.nodeSelector, cluster.tolerations, CurationEnv(mapping.name, minAgeMillis), DeleteJob,
            collab.ensureLinuxNodeSelector);
          assert ParseDecimal(Containers(job)[0].env[2].value) == minAgeMillis as nat by {
            DecimalRoundTrip(minAgeMillis as nat);
          }
          Build(job)
  }

  /** The scripts config map: fixed name and labels, the script bundle as data. */
  function ScriptsConfigMap(cluster: Cluster, scripts: map<string, string>): (cm: ConfigMap)
    ensures cm.meta == ObjectMeta(IndexManagementConfigmap, cluster.namespace, ImLabels) && cm.data == scripts
  {
    ConfigMap(ObjectMeta(IndexManagementConfigmap, cluster.namespace, ImLabels), scripts)
  }
}

=== FILE: converger.dfy ===
/**
 * The create-or-update protocol: try Create; on "already exists" run a
 * fetch-compare-maybe-write attempt under a conflict-only retry with a
 * bounded number of attempts (client-go's retry.RetryOnConflict with
 * retry.DefaultRetry). The protocol is specified once, by pure functions over
 * the store state that are generic in the object kind; the cron-job and
 * config-map reconcilers are the imperative methods proved against them.
 */
module Converger {
  import opened Wrappers
  import opened Kube
  import opened Store
  import opened Sameness

  /** What a reconcile step can report. `IndexPanic` stands for the Go runtime panic in the sameness check. */
  datatype Error =
    | Api(apiErr: ApiError)
    | IndexPanic
    | InvalidSchedule
    | InvalidMinAge
    | Serialization

  /** How one kind of object is compared, and how the desired state is written onto the fetched object. */
  datatype Convergence<!T> = Convergence(same: (T, T) -> Verdict, adopt: (T, T) -> T)

  /** retry.DefaultRetry allows five attempts. */
  const DefaultRetrySteps: nat := 5

  /** A cron job with its whole spec replaced by the desired one; its metadata is the stored one. */
  function AdoptSpec(current: CronJob, desired: CronJob): (r: CronJob)
    ensures r.meta == current.meta && r.spec == desired.spec
  {
    current.(spec := desired.spec)
  }

  /** A config map with its data replaced by the desired data; its metadata is the stored one. */
  function AdoptData(current: ConfigMap, desired: ConfigMap): (r: ConfigMap)
    ensures r.meta == current.meta && r.data == desired.data
  {
    current.(data := desired.data)
  }

  function CronJobConvergence(cmp: Comparators): Convergence<CronJob> {
    Convergence((lhs, rhs) => CronJobVerdict(cmp, lhs, rhs), AdoptSpec)
  }

  function ConfigMapConvergence(): Convergence<ConfigMap> {
    Convergence(ConfigMapVerdict, AdoptData)
  }

  function JobKey(job: CronJob): ObjectKey {
    ObjectKey(job.meta.namespace, job.meta.name)
  }

  function ConfigMapKey(cm: ConfigMap): ObjectKey {
    ObjectKey(cm.meta.namespace, cm.meta.name)
  }

  predicate IsConflict(e: Option<Error>) {
    e == Some(Api(Conflict))
  }

  function Wrap(e: Option<ApiError>): Option<Error> {
    if e.Some? then Some(Api(e.value)) else None
  }

  /** One attempt: re-Get, compare, and Update only when the verdict is "different". */
  function AttemptStep<T>(st: StoreState<T>, key: ObjectKey, desired: T, conv: Convergence<T>): (StoreState<T>, Option<Error>) {
    var fetched := GetStep(st, key);
    if fetched.1.Failed? then (fetched.0, Some(Api(fetched.1.err)))
    else
      match conv.same(fetched.1.value, desired)
      case Same => (fetched.0, None)
      case IndexOutOfRange => (fetched.0, Some(IndexPanic))
      case Different =>
        var updated := UpdateStep(fetched.0, key, conv.adopt(fetched.1.value, desired));
        (updated.0, Wrap(updated.1))
  }

  /** At most `steps` attempts; a new attempt only after a conflict; the last attempt's result is returned. */
  function Retry<T>(st: StoreState<T>, key: ObjectKey, desired: T, conv: Convergence<T>, steps: nat): (StoreState<T>, Option<Error>)
    requires steps >= 1
    decreases steps
  {
    var first := AttemptStep(st, key, desired, conv);
    if IsConflict(first.1) && steps > 1 then Retry(first.0, key, desired, conv, steps - 1) else first
  }

  /** Where a retry loop with `left` attempts to spare ends up from an attempt that returned `e`. */
  function Resume<T>(st: StoreState<T>, e: Option<Error>, key: ObjectKey, desired: T, conv: Convergence<T>, left: nat): (StoreState<T>, Option<Error>) {
    if IsConflict(e) && left > 0 then Retry(st, key, desired, conv, left) else (st, e)
  }

  /** The whole protocol: Create, and the update path only when Create says "already exists". */
  function CreateOrUpdate<T>(st: StoreState<T>, key: ObjectKey, desired: T, conv: Convergence<T>): (StoreState<T>, Option<Error>) {
    var created := CreateStep(st, key, desired);
    if created.1.None? then (created.0, None)
    else if created.1 != Some(AlreadyExists) then (created.0, Some(Api(created.1.value)))
    else Retry(created.0, key, desired, conv, DefaultRetrySteps)
  }

  /** One fetch-compare-write attempt for a cron job, calling the sameness check itself. */
  method CronJobAttempt(store: Store<CronJob>, key: ObjectKey, desired: CronJob, cmp: Comparators) returns (err: Option<Error>)
    modifies store
    ensures (store.State(), err) == AttemptStep(old(store.State()), key, desired, CronJobConvergence(cmp))
  {
    var fetched := store.Get(key);
    if fetched.Failed? {
      return Some(Api(fetched.err));
    }
    var current := fetched.value;
    var same;
    same, current := AreCronJobsSame(cmp, current, desired);
    if same == IndexOutOfRange {
      return Some(IndexPanic);
    }
    if same == Same {
      return None;
    }
    current := current.(spec := desired.spec);
    var e := store.Update(key, current);
    err := Wrap(e);
  }

  /** reconcileCronJob: create, or converge the stored job onto the desired one. */
  method ReconcileCronJob(store: Store<CronJob>, desired: CronJob, cmp: Comparators) returns (err: Option<Error>)
    modifies store
    ensures (store.State(), err) == CreateOrUpdate(old(store.State()), JobKey(desired), desired, CronJobConvergence(cmp))
  {
    var key := JobKey(desired);
    var created := store.Create(key, desired);
    if created.None? {
      return None;
    }
    if created != Some(AlreadyExists) {
      return Some(Api(created.value));
    }
    ghost var start := store.State();
    err := CronJobAttempt(store, key, desired, cmp);
    var attempts := 1;
    while IsConflict(err) && attempts < DefaultRetrySteps
      invariant 1 <= attempts <= DefaultRetrySteps
      invariant Retry(start, key, desired, CronJobConvergence(cmp), DefaultRetrySteps)
        == Resume(store.State(), err, key, desired, CronJobConvergence(cmp), DefaultRetrySteps - attempts)
      decreases DefaultRetrySteps - attempts
    {
      err := CronJobAttempt(store, key, desired, cmp);
      attempts := attempts + 1;
    }
  }

  /** One fetch-compare-write attempt for the scripts config map. */
  method ConfigMapAttempt(store: Store<ConfigMap>, key: ObjectKey, desired: ConfigMap) returns (err: Option<Error>)
    modifies store
    ensures (store.State(), err) == AttemptStep(old(store.State()), key, desired, ConfigMapConvergence())
  {
    var fetched := store.Get(key);
    if fetched.Failed? {
      return Some(Api(fetched.err));
    }
    var current := fetched.value;
    if desired.data != current.data {
      current := current.(data := desired.data);
      var e := store.Update(key, current);
      return Wrap(e);
    }
    return None;
  }

  /** The create-or-update part of ReconcileCurationConfigmap, for an already built config map. */
  method ReconcileConfigMap(store: Store<ConfigMap>, desired: ConfigMap) returns (err: Option<Error>)
    modifies store
    ensures (store.State(), err) == CreateOrUpdate(old(store.State()), ConfigMapKey(desired), desired, ConfigMapConvergence())
  {
    var key := ConfigMapKey(desired);
    var created := store.Create(key, desired);
    if created.None? {
      return None;
    }
    if created != Some(AlreadyExists) {
      return Some(Api(created.value));
    }
    ghost var start := store.State();
    err := ConfigMapAttempt(store, key, desired);
    var attempts := 1;
    while IsConflict(err) && attempts < DefaultRetrySteps
      invariant 1 <= attempts <= DefaultRetrySteps
      invariant Retry(start, key, desired, ConfigMapConvergence(), DefaultRetrySteps)
        == Resume(store.State(), err, key, desired, ConfigMapConvergence(), DefaultRetrySteps - attempts)
      decreases DefaultRetrySteps - attempts
    {
      err := ConfigMapAttempt(store, key, desired);
      attempts := attempts + 1;
    }
  }
}

module ConvergerProperties {
  import opened Wrappers
  import opened Kube
  import opened Store
  import opened Sameness
  import opened Converger

  /** The number of Get calls in a log: one per attempt of the update path. */
  function Gets<T>(calls: seq<Call<T>>): nat {
    if calls == [] then 0 else (if calls[0].GetCall? then 1 else 0) + Gets(calls[1..])
  }

  lemma {:induction false} GetsAppend<T>(a: seq<Call<T>>, b: seq<Call<T>>)
    ensures Gets(a + b) == Gets(a) + Gets(b)
  {
    if a != [] {
      assert (a + b)[1..] == a[1..] + b;
      GetsAppend(a[1..], b);
    } else {
      assert a + b == b;
    }
  }

  /** The calls added over two stretches are those of the first stretch followed by those of the second. */
  lemma CallsSplit<T>(a: seq<Call<T>>, b: seq<Call<T>>, c: seq<Call<T>>)
    requires a <= b <= c
    ensures c[|a|..] == b[|a|..] + c[|b|..]
  {
    assert forall i :: 0 <= i < |c| - |a| ==> c[|a|..][i] == (b[|a|..] + c[|b|..])[i];
  }

  lemma AttemptGets<T>(key: ObjectKey, written: T)
    ensures Gets<T>([GetCall(key)]) == 1 && Gets([GetCall(key), UpdateCall(key, written)]) == 1
  {
    assert [GetCall(key), UpdateCall(key, written)][1..] == [UpdateCall(key, written)];
    assert [UpdateCall(key, written)][1..] == [];
  }

  /** The calls one attempt adds, and what it does to the store. */
  lemma AttemptEffect<T>(st: StoreState<T>, key: ObjectKey, desired: T, conv: Convergence<T>)
    ensures var r := AttemptStep(st, key, desired, conv);
      (r.0.calls == st.calls + [GetCall(key)] && r.0.objects == st.objects) ||
      (key in st.objects && conv.same(st.objects[key], desired) == Different &&
       r.0.calls == st.calls + [GetCall(key), UpdateCall(key, conv.adopt(st.objects[key], desired))] &&
       (r.0.objects == st.objects || (r.1.None? && r.0.objects == st.objects[key := conv.adopt(st.objects[key], desired)])))
    ensures IsConflict(AttemptStep(st, key, desired, conv).1) ==> AttemptStep(st, key, desired, conv).0.objects == st.objects
    ensures Next(st.outcomes) == Proceed && key in st.objects && conv.same(st.objects[key], desired) == Different ==>
      AttemptStep(st, key, desired, conv).0.calls == st.calls + [GetCall(key), UpdateCall(key, conv.adopt(st.objects[key], desired))]
  {
  }

  /**
   * Bounded, conflict-only retry: the update path makes between one and
   * `steps` attempts (one Get each), and makes a second attempt only if the
   * first ended in a version conflict.
   */
  lemma {:induction false} RetryAttempts<T>(st: StoreState<T>, key: ObjectKey, desired: T, conv: Convergence<T>, steps: nat)
    requires steps >= 1
    ensures var r := Retry(st, key, desired, conv, steps);
      st.calls <= r.0.calls &&
      1 <= Gets(r.0.calls[|st.calls|..]) <= steps &&
      (Gets(r.0.calls[|st.calls|..]) > 1 ==> IsConflict(AttemptStep(st, key, desired, conv).1))
    decreases steps
  {
    var first := AttemptStep(st, key, desired, conv);
    AttemptEffect(st, key, desired, conv);
    var added := first.0.calls[|st.calls|..];
    assert Gets(added) == 1 by {
      if first.0.calls == st.calls + [GetCall(key)] {
        AttemptGets(key, desired);
        assert added == [GetCall(key)];
      } else {
        AttemptGets(key, conv.adopt(st.objects[key], desired));
        assert added == [GetCall(key), UpdateCall(key, conv.adopt(st.objects[key], desired))];
      }
    }
    if IsConflict(first.1) && steps > 1 {
      RetryAttempts(first.0, key, desired, conv, steps - 1);
      var r := Retry(first.0, key, desired, conv, steps - 1);
      CallsSplit(st.calls, first.0.calls, r.0.calls);
      GetsAppend(added, r.0.calls[|first.0.calls|..]);
    }
  }

  /**
   * The update path writes nothing but the fetched object with the desired
   * state adopted: every call it issues is a Get of the key or an Update
   * carrying exactly that object, and the only possible change to the store
   * is that object replacing the stored one, on success.
   */
  lemma {:induction false} RetryWrites<T>(st: StoreState<T>, key: ObjectKey, desired: T, conv: Convergence<T>, steps: nat)
    requires steps >= 1
    ensures var r := Retry(st, key, desired, conv, steps);
      st.calls <= r.0.calls &&
      (forall c :: c in r.0.calls[|st.calls|..] ==>
        c == GetCall(key) || (key in st.objects && c == UpdateCall(key, conv.adopt(st.objects[key], desired)))) &&
      (r.0.objects == st.objects ||
        (key in st.objects && r.1.None? && r.0.objects == st.objects[key := conv.adopt(st.objects[key], desired)]))
    decreases steps
  {
    var first := AttemptStep(st, key, desired, conv);
    AttemptEffect(st, key, desired, conv);
    if IsConflict(first.1) && steps > 1 {
      RetryWrites(first.0, key, desired, conv, steps - 1);
      var r := Retry(first.0, key, desired, conv, steps - 1);
      CallsSplit(st.calls, first.0.calls, r.0.calls);
    }
  }

  /** Idempotence of the update path: a stored object that is already the same is neither written nor changed. */
  lemma RetryIdempotent<T>(st: StoreState<T>, key: ObjectKey, desired: T, conv: Convergence<T>, steps: nat)
    requires steps >= 1
    requires key in st.objects && conv.same(st.objects[key], desired) == Same && Next(st.outcomes) == Proceed
    ensures var r := Retry(st, key, desired, conv, steps);
      r.1 == None && r.0.objects == st.objects && r.0.calls == st.calls + [GetCall(key)]
  {
  }

  /** A script in which each of `n` attempts fetches successfully and then loses its Update to a conflict. */
  function ConflictScript(n: nat): (s: seq<Outcome>)
    ensures |s| == 2 * n
  {
    if n == 0 then [] else [Proceed, Reject(Conflict)] + ConflictScript(n - 1)
  }

  /** One attempt that fetches the object, finds it different and loses its Update to a conflict. */
  lemma ConflictingAttempt<T>(st: StoreState<T>, key: ObjectKey, desired: T, conv: Convergence<T>, tail: seq<Outcome>)
    requires key in st.objects && conv.same(st.objects[key], desired) == Different
    requires st.outcomes == [Proceed, Reject(Conflict)] + tail
    ensures var first := AttemptStep(st, key, desired, conv);
      first.1 == Some(Api(Conflict)) && first.0.objects == st.objects && first.0.outcomes == tail &&
      first.0.calls == st.calls + [GetCall(key), UpdateCall(key, conv.adopt(st.objects[key], desired))]
  {
    var fetched := GetStep(st, key);
    assert fetched.0.outcomes == [Reject(Conflict)] + tail;
  }

  /** When every Update conflicts, the retry gives up after exactly `steps` attempts, reports the conflict and changes nothing. */
  lemma {:induction false} RetryExhausted<T>(st: StoreState<T>, key: ObjectKey, desired: T, conv: Convergence<T>, steps: nat, rest: seq<Outcome>)
    requires steps >= 1
    requires key in st.objects && conv.same(st.objects[key], desired) == Different
    requires st.outcomes == ConflictScript(steps) + rest
    ensures var r := Retry(st, key, desired, conv, steps);
      r.1 == Some(Api(Conflict)) && r.0.objects == st.objects && r.0.outcomes == rest &&
      st.calls <= r.0.calls && Gets(r.0.calls[|st.calls|..]) == steps
    decreases steps
  {
    var written := conv.adopt(st.objects[key], desired);
    var added := [GetCall(key), UpdateCall(key, written)];
    assert st.outcomes == [Proceed, Reject(Conflict)] + (ConflictScript(steps - 1) + rest);
    ConflictingAttempt(st, key, desired, conv, ConflictScript(steps - 1) + rest);
    var first := AttemptStep(st, key, desired, conv);
    AttemptGets(key, written);
    assert first.0.calls[|st.calls|..] == added;
    if steps > 1 {
      RetryExhausted(first.0, key, desired, conv, steps - 1, rest);
      var r := Retry(first.0, key, desired, conv, steps - 1);
      CallsSplit(st.calls, first.0.calls, r.0.calls);
      GetsAppend(added, r.0.calls[|first.0.calls|..]);
    }
  }

  /**
   * The shape of the whole protocol: a Create first; if it succeeds, or fails
   * with anything but "already exists", nothing else is issued and that
   * result is returned; otherwise at most DefaultRetrySteps attempts follow.
   */
  lemma CreateOrUpdateCalls<T>(st: StoreState<T>, key: ObjectKey, desired: T, conv: Convergence<T>)
    ensures var r := CreateOrUpdate(st, key, desired, conv);
      var created := CreateStep(st, key, desired);
      st.calls + [CreateCall(key)] <= r.0.calls &&
      Gets(r.0.calls[|st.calls| + 1..]) <= DefaultRetrySteps &&
      (created.1 != Some(AlreadyExists) ==>
        r.0.calls == st.calls + [CreateCall(key)] && r.0.objects == created.0.objects && r.1 == Wrap(created.1)) &&
      (created.1.None? ==> r.0.objects == st.objects[key := desired] && r.1 == None)
  {
    var created := CreateStep(st, key, desired);
    if created.1 == Some(AlreadyExists) {
      RetryAttempts(created.0, key, desired, conv, DefaultRetrySteps);
    }
  }

  /**
   * A stored object judged different is written: with no interference the
   * protocol fetches it once and updates it once with the desired state
   * adopted, and reports success.
   */
  lemma DifferentIsWritten<T>(st: StoreState<T>, key: ObjectKey, desired: T, conv: Convergence<T>)
    requires key in st.objects && conv.same(st.objects[key], desired) == Different && st.outcomes == []
    ensures var r := CreateOrUpdate(st, key, desired, conv);
      var written := conv.adopt(st.objects[key], desired);
      r.1 == None && r.0.objects == st.objects[key := written] &&
      r.0.calls == st.calls + [CreateCall(key), GetCall(key), UpdateCall(key, written)]
  {
  }

  /**
   * Two passes with an unchanged desired object and no interference: the
   * first creates it; the second issues only a Create (answered "already
   * exists") and a Get, no Update, and leaves the store as it was.
   */
  lemma SecondPassIdempotent<T>(st: StoreState<T>, key: ObjectKey, desired: T, conv: Convergence<T>)
    requires key !in st.objects && st.outcomes == []
    requires conv.same(desired, desired) == Same
    ensures var first := CreateOrUpdate(st, key, desired, conv);
      var second := CreateOrUpdate(first.0, key, desired, conv);
      first.1 == None && first.0.objects == st.objects[key := desired] &&
      second.1 == None && second.0.objects == first.0.objects &&
      second.0.calls == first.0.calls + [CreateCall(key), GetCall(key)]
  {
    var first := CreateOrUpdate(st, key, desired, conv);
    var created := CreateStep(first.0, key, desired);
    RetryIdempotent(created.0, key, desired, conv, DefaultRetrySteps);
  }

  /**
   * A conflict on the first Update followed by an uncontended retry: the
   * protocol reports success, the object is re-fetched and written again,
   * and the store ends with the fetched object carrying the desired state.
   */
  lemma ConflictThenSuccess<T>(st: StoreState<T>, key: ObjectKey, desired: T, conv: Convergence<T>)
    requires key in st.objects && conv.same(st.objects[key], desired) == Different
    requires st.outcomes == [Proceed, Proceed, Reject(Conflict)]
    ensures var r := CreateOrUpdate(st, key, desired, conv);
      var written := conv.adopt(st.objects[key], desired);
      r.1 == None && r.0.objects == st.objects[key := written] &&
      r.0.calls == st.calls + [CreateCall(key), GetCall(key), UpdateCall(key, written), GetCall(key), UpdateCall(key, written)]
  {
    var created := CreateStep(st, key, desired);
    var first := AttemptStep(created.0, key, desired, conv);
    assert first.0.outcomes == [];
    var second := AttemptStep(first.0, key, desired, conv);
    assert Retry(first.0, key, desired, conv, DefaultRetrySteps - 1) == second;
  }

  /**
   * Schedule drift on a cron job is corrected with exactly one Update, and
   * that Update changes the schedule and nothing else.
   */
  lemma ScheduleDriftCorrected(st: StoreState<CronJob>, desired: CronJob, cmp: Comparators)
    requires Reflexive(cmp) && st.outcomes == []
    requires JobKey(desired) in st.objects
    requires var current := st.objects[JobKey(desired)];
      current.spec == desired.spec.(schedule := current.spec.schedule) && current.spec.schedule != desired.spec.schedule
    ensures var key := JobKey(desired);
      var current := st.objects[key];
      var r := CreateOrUpdate(st, key, desired, CronJobConvergence(cmp));
      r.1 == None &&
      r.0.calls == st.calls + [CreateCall(key), GetCall(key), UpdateCall(key, WithSchedule(current, desired.spec.schedule))] &&
      r.0.objects == st.objects[key := WithSchedule(current, desired.spec.schedule)]
  {
    var key := JobKey(desired);
    ScheduleDriftDetected(cmp, st.objects[key], desired);
  }
}

=== FILE: kube.dfy ===
/**
 * The Kubernetes objects the index-management reconciler builds and compares,
 * reduced to the fields it reads or writes, and the package-level constants
 * of internal/indexmanagement/reconcile.go.
 */
module Kube {
  import opened Wrappers

  type Labels = map<string, string>

  datatype ObjectMeta = ObjectMeta(name: string, namespace: string, labels: Labels)

  datatype EnvVar = EnvVar(name: string, value: string)

  /** A resource quantity such as "100m"; parsing quantities is not part of this model. */
  datatype Quantity = Quantity(text: string)

  datatype Resources = Resources(requests: map<string, Quantity>)

  datatype VolumeMount = VolumeMount(name: string, readOnly: bool, mountPath: string)

  datatype PullPolicy = PullAlways | PullIfNotPresent | PullNever

  datatype Container = Container(
    name: string,
    image: string,
    pullPolicy: PullPolicy,
    resources: Resources,
    env: seq<EnvVar>,
    command: seq<string>,
    args: seq<string>,
    volumeMounts: seq<VolumeMount>)

  datatype Toleration = Toleration(key: string, operator: string, value: string, effect: string)

  datatype VolumeSource =
    | SecretVolume(secretName: string)
    | ConfigMapVolume(configMapName: string, defaultMode: int)

  datatype Volume = Volume(name: string, source: VolumeSource)

  datatype RestartPolicy = RestartAlways | RestartOnFailure | RestartNever

  datatype PodSpec = PodSpec(
    serviceAccountName: string,
    containers: seq<Container>,
    volumes: seq<Volume>,
    nodeSelector: Labels,
    tolerations: seq<Toleration>,
    restartPolicy: RestartPolicy,
    terminationGracePeriodSeconds: int)

  datatype JobSpec = JobSpec(backoffLimit: int, parallelism: int, templateMeta: ObjectMeta, pod: PodSpec)

  datatype ConcurrencyPolicy = AllowConcurrent | ForbidConcurrent | ReplaceConcurrent

  datatype CronJobSpec = CronJobSpec(
    concurrencyPolicy: ConcurrencyPolicy,
    successfulJobsHistoryLimit: int,
    failedJobsHistoryLimit: int,
    schedule: string,
    suspend: Option<bool>,
    jobTemplate: JobSpec)

  datatype CronJob = CronJob(meta: ObjectMeta, spec: CronJobSpec)

  datatype ConfigMap = ConfigMap(meta: ObjectMeta, data: map<string, string>)

  /** The pod specification inside a cron job's job template. */
  function Pod(job: CronJob): PodSpec {
    job.spec.jobTemplate.pod
  }

  function Containers(job: CronJob): seq<Container> {
    job.spec.jobTemplate.pod.containers
  }

  /** A cron job whose schedule is replaced and nothing else. */
  function WithSchedule(job: CronJob, schedule: string): (r: CronJob)
    ensures r.meta == job.meta && r.spec.schedule == schedule
    ensures r.spec.(schedule := job.spec.schedule) == job.spec
  {
    job.(spec := job.spec.(schedule := schedule))
  }

  /** Go's uint64: the type of the minimum age in milliseconds. */
  newtype u64 = x: int | 0 <= x < 0x1_0000_0000_0000_0000

  // Package constants.

  const IndexManagementConfigmap: string := "indexmanagement-scripts"
  /** Read only by calculateConditions, whose body is not part of this model; kept for reference. */
  const DefaultShardSize: int := 40
  const DefaultCpuRequest: Quantity := Quantity("100m")
  const DefaultMemoryRequest: Quantity := Quantity("32Mi")
  const JobHistoryLimitFailed: int := 1
  const JobHistoryLimitSuccess: int := 1

  const MillisPerSecond: nat := 1000
  const MillisPerMinute: nat := 60 * MillisPerSecond
  const MillisPerHour: nat := MillisPerMinute * 60
  const MillisPerDay: nat := MillisPerHour * 24
  const MillisPerWeek: nat := MillisPerDay * 7

  /** Octal 0777, the mode of the mounted script files. */
  const FullExecMode: int := 0x1FF

  /** The label triple every derived object carries and orphan cleanup selects on. */
  const ImLabels: Labels := map[
    "provider" := "openshift",
    "component" := "indexManagement",
    "logging-infra" := "indexManagement"]

  /** The millisecond factors are exact and each fits the source's uint64. */
  lemma UnitFactors()
    ensures MillisPerSecond == 1_000 && MillisPerMinute == 60_000 && MillisPerHour == 3_600_000
    ensures MillisPerDay == 86_400_000 && MillisPerWeek == 604_800_000
    ensures MillisPerWeek < 0x1_0000_0000_0000_0000
    ensures FullExecMode == 7 * 64 + 7 * 8 + 7
  {
  }
}

=== FILE: orphans.dfy ===
/**
 * Orphan cleanup: the cron jobs that should exist are computed from the
 * mappings and their policies; the labelled cron jobs that do exist are
 * listed; every listed name that is not expected is deleted, in ascending
 * order, best-effort.
 */
module Orphans {
  import opened Wrappers
  import opened Kube
  import opened Store
  import opened Strings
  import opened Converger
  import opened Builder

  /** The policy a mapping refers to; a missing entry reads as the zero policy, which has no phases. */
  function PolicyFor(policies: map<string, Policy>, ref: string): (p: Policy)
    ensures ref in policies ==> p == policies[ref]
    ensures ref !in policies ==> p.hot.None? && p.delete.None?
  {
    if ref in policies then policies[ref] else Policy("", None, None)
  }

  /** The job names one mapping contributes. */
  function MappingJobNames(clusterName: string, mapping: Mapping, policies: map<string, Policy>): set<string> {
    var policy := PolicyFor(policies, mapping.policyRef);
    (if policy.hot.Some? then {RolloverName(clusterName, mapping.name)} else {}) +
    (if policy.delete.Some? then {DeleteName(clusterName, mapping.name)} else {})
  }

  /** The names of the cron jobs the mappings call for. */
  function ExpectedNames(clusterName: string, mappings: seq<Mapping>, policies: map<string, Policy>): set<string>
    decreases |mappings|
  {
    if mappings == [] then {}
    else ExpectedNames(clusterName, mappings[..|mappings| - 1], policies) +
         MappingJobNames(clusterName, mappings[|mappings| - 1], policies)
  }

  /** A mapping contributes its rollover name exactly when its policy has a hot phase. */
  predicate ExpectsRollover(clusterName: string, mapping: Mapping, policies: map<string, Policy>, name: string) {
    PolicyFor(policies, mapping.policyRef).hot.Some? && name == RolloverName(clusterName, mapping.name)
  }

  /** A mapping contributes its delete name exactly when its policy has a delete phase. */
  predicate ExpectsDelete(clusterName: string, mapping: Mapping, policies: map<string, Policy>, name: string) {
    PolicyFor(policies, mapping.policyRef).delete.Some? && name == DeleteName(clusterName, mapping.name)
  }

  /**
   * The expected set holds `<cluster>-rollover-<mapping>` exactly for the
   * mappings with a hot phase, `<cluster>-delete-<mapping>` exactly for those
   * with a delete phase, and nothing else.
   */
  lemma {:induction false} ExpectedNamesIff(clusterName: string, mappings: seq<Mapping>, policies: map<string, Policy>, name: string)
    ensures name in ExpectedNames(clusterName, mappings, policies) <==>
      exists i :: 0 <= i < |mappings| &&
        (ExpectsRollover(clusterName, mappings[i], policies, name) || ExpectsDelete(clusterName, mappings[i], policies, name))
    decreases |mappings|
  {
    if mappings != [] {
      var n := |mappings| - 1;
      var prefix := mappings[..n];
      ExpectedNamesIff(clusterName, prefix, policies, name);
      if name in ExpectedNames(clusterName, prefix, policies) {
        var i :| 0 <= i < n &&
          (ExpectsRollover(clusterName, prefix[i], policies, name) || ExpectsDelete(clusterName, prefix[i], policies, name));
        assert prefix[i] == mappings[i];
      }
      if exists i :: 0 <= i < |mappings| &&
          (ExpectsRollover(clusterName, mappings[i], policies, name) || ExpectsDelete(clusterName, mappings[i], policies, name)) {
        var i :| 0 <= i < |mappings| &&
          (ExpectsRollover(clusterName, mappings[i], policies, name) || ExpectsDelete(clusterName, mappings[i], policies, name));
        if i < n {
          assert prefix[i] == mappings[i];
        }
      }
    }
  }

  /** The Delete calls for `names`, in order. */
  function DeleteCalls(namespace: string, names: seq<string>): (calls: seq<Call<CronJob>>)
    ensures |calls| == |names|
    ensures forall i :: 0 <= i < |names| ==> calls[i] == DeleteCall(ObjectKey(namespace, names[i]))
    decreases |names|
  {
    if names == [] then []
    else DeleteCalls(namespace, names[..|names| - 1]) + [DeleteCall(ObjectKey(namespace, names[|names| - 1]))]
  }

  /** The store after deleting `names` one by one, whatever each Delete answers. */
  function DeleteAll(st: StoreState<CronJob>, namespace: string, names: seq<string>): StoreState<CronJob>
    decreases |names|
  {
    if names == [] then st
    else DeleteStep(DeleteAll(st, namespace, names[..|names| - 1]), ObjectKey(namespace, names[|names| - 1])).0
  }

  /** The cron jobs listed for the cluster that no mapping calls for, in deletion order. */
  function OrphanNames(objects: map<ObjectKey, CronJob>, cluster: Cluster, mappings: seq<Mapping>, policies: map<string, Policy>,
                   labelsOf: CronJob -> Labels): seq<string> {
    SortedNames(Listed(objects, cluster.namespace, ImLabels, labelsOf) - ExpectedNames(cluster.name, mappings, policies))
  }

  /** RemoveCronJobsForMappings as a function of the store state. */
  function Cleanup(st: StoreState<CronJob>, cluster: Cluster, mappings: seq<Mapping>, policies: map<string, Policy>,
                   labelsOf: CronJob -> Labels): (StoreState<CronJob>, Option<Error>) {
    var listed := ListStep(st, cluster.namespace, ImLabels, labelsOf);
    if listed.1.Failed? then (listed.0, Some(Api(listed.1.err)))
    else (DeleteAll(listed.0, cluster.namespace, OrphanNames(st.objects, cluster, mappings, policies, labelsOf)), None)
  }

  lemma {:induction false} DeleteAllCalls(st: StoreState<CronJob>, namespace: string, names: seq<string>)
    ensures DeleteAll(st, namespace, names).calls == st.calls + DeleteCalls(namespace, names)
    decreases |names|
  {
    if names != [] {
      DeleteAllCalls(st, namespace, names[..|names| - 1]);
    }
  }

  /** Deleting removes entries and nothing else; an entry whose name is not in `names` (or that lies in another namespace) stays. */
  lemma {:induction false} DeleteAllFrame(st: StoreState<CronJob>, namespace: string, names: seq<string>)
    ensures var r := DeleteAll(st, namespace, names);
      (forall k :: k in r.objects ==> k in st.objects && r.objects[k] == st.objects[k]) &&
      (forall k :: k in st.objects && (k.namespace != namespace || k.name !in names) ==> k in r.objects)
    decreases |names|
  {
    if names != [] {
      DeleteAllFrame(st, namespace, names[..|names| - 1]);
    }
  }

  /** With no interference every named entry goes: the store is the old one minus exactly those keys. */
  lemma {:induction false} DeleteAllFaultFree(st: StoreState<CronJob>, namespace: string, names: seq<string>)
    requires st.outcomes == []
    ensures var r := DeleteAll(st, namespace, names);
      r.outcomes == [] &&
      r.objects == map k | k in st.objects && !(k.namespace == namespace && k.name in names) :: st.objects[k]
    decreases |names|
  {
    if names != [] {
      DeleteAllFaultFree(st, namespace, names[..|names| - 1]);
    }
  }

  /**
   * What cleanup does. A failed List is the only error: it is returned with
   * nothing deleted. Otherwise the result is success, the calls are the List
   * then exactly one Delete per orphan in ascending order, an entry whose
   * name is expected (or that lies outside the cluster's namespace) is never
   * removed, and nothing is ever written.
   */
  lemma CleanupOutcome(st: StoreState<CronJob>, cluster: Cluster, mappings: seq<Mapping>, policies: map<string, Policy>,
                       labelsOf: CronJob -> Labels)
    ensures var r := Cleanup(st, cluster, mappings, policies, labelsOf);
      var orphans := OrphanNames(st.objects, cluster, mappings, policies, labelsOf);
      (r.1.Some? <==> Next(st.outcomes).Reject?) &&
      (r.1.Some? ==> r.1 == Some(Api(Next(st.outcomes).err)) && r.0.objects == st.objects &&
                     r.0.calls == st.calls + [ListCall(cluster.namespace)]) &&
      (r.1.None? ==> r.0.calls == st.calls + [ListCall(cluster.namespace)] + DeleteCalls(cluster.namespace, orphans)) &&
      (forall n :: n in orphans <==> n in Listed(st.objects, cluster.namespace, ImLabels, labelsOf) &&
                                     n !in ExpectedNames(cluster.name, mappings, policies)) &&
      (forall k :: k in st.objects && (k.namespace != cluster.namespace || k.name in ExpectedNames(cluster.name, mappings, policies))
         ==> k in r.0.objects && r.0.objects[k] == st.objects[k]) &&
      (forall k :: k in r.0.objects ==> k in st.objects && r.0.objects[k] == st.objects[k])
  {
    var listed := ListStep(st, cluster.namespace, ImLabels, labelsOf);
    var orphans := OrphanNames(st.objects, cluster, mappings, policies, labelsOf);
    DeleteAllCalls(listed.0, cluster.namespace, orphans);
    DeleteAllFrame(listed.0, cluster.namespace, orphans);
  }

  /** Within the cluster's namespace, a stored job is an orphan exactly when it is labelled and not expected. */
  lemma OrphanKeys(st: StoreState<CronJob>, cluster: Cluster, mappings: seq<Mapping>, policies: map<string, Policy>,
                   labelsOf: CronJob -> Labels, k: ObjectKey)
    requires k in st.objects && k.namespace == cluster.namespace
    ensures k.name in OrphanNames(st.objects, cluster, mappings, policies, labelsOf) <==>
      Selects(ImLabels, labelsOf(st.objects[k])) && k.name !in ExpectedNames(cluster.name, mappings, policies)
  {
    var names := Listed(st.objects, cluster.namespace, ImLabels, labelsOf);
    var expected := ExpectedNames(cluster.name, mappings, policies);
    assert k == ObjectKey(cluster.namespace, k.name);
    assert k.name in OrphanNames(st.objects, cluster, mappings, policies, labelsOf) <==> k.name in names && k.name !in expected;
  }

  /** Deleting a name list that picks out exactly the labelled, unexpected jobs of a namespace keeps all the others. */
  lemma DeletionKeepsTheRest(st: StoreState<CronJob>, namespace: string, names: seq<string>,
                             labelsOf: CronJob -> Labels, expected: set<string>)
    requires st.outcomes == []
    requires forall k :: k in st.objects && k.namespace == namespace ==>
      (k.name in names <==> Selects(ImLabels, labelsOf(st.objects[k])) && k.name !in expected)
    ensures DeleteAll(st, namespace, names).objects == map k | k in st.objects &&
      !(k.namespace == namespace && Selects(ImLabels, labelsOf(st.objects[k])) && k.name !in expected) :: st.objects[k]
  {
    DeleteAllFaultFree(st, namespace, names);
  }

  /**
   * Without interference, cleanup removes exactly the orphans: the labelled
   * cron jobs in the cluster's namespace whose names no mapping calls for.
   */
  lemma CleanupRemovesExactlyOrphans(st: StoreState<CronJob>, cluster: Cluster, mappings: seq<Mapping>, policies: map<string, Policy>,
                                     labelsOf: CronJob -> Labels)
    requires st.outcomes == []
    ensures var r := Cleanup(st, cluster, mappings, policies, labelsOf);
      var expected := ExpectedNames(cluster.name, mappings, policies);
      r.1 == None &&
      r.0.objects == map k | k in st.objects &&
        !(k.namespace == cluster.namespace && Selects(ImLabels, labelsOf(st.objects[k])) && k.name !in expected) :: st.objects[k]
  {
    var listed := ListStep(st, cluster.namespace, ImLabels, labelsOf);
    var orphans := OrphanNames(st.objects, cluster, mappings, policies, labelsOf);
    var expected := ExpectedNames(cluster.name, mappings, policies);
    forall k | k in listed.0.objects && k.namespace == cluster.namespace
      ensures k.name in orphans <==> Selects(ImLabels, labelsOf(listed.0.objects[k])) && k.name !in expected
    {
      OrphanKeys(st, cluster, mappings, policies, labelsOf, k);
    }
    DeletionKeepsTheRest(listed.0, cluster.namespace, orphans, labelsOf, expected);
  }

  /** The first loop of the cleanup: the expected names, mapping by mapping. */
  method CollectExpected(clusterName: string, mappings: seq<Mapping>, policies: map<string, Policy>) returns (expected: set<string>)
    ensures expected == ExpectedNames(clusterName, mappings, policies)
  {
    expected := {};
    for i := 0 to |mappings|
      invariant expected == ExpectedNames(clusterName, mappings[..i], policies)
    {
      assert mappings[..i + 1][..i] == mappings[..i];
      var policy := PolicyFor(policies, mappings[i].policyRef);
      if policy.hot.Some? {
        expected := expected + {RolloverName(clusterName, mappings[i].name)};
      }
      if policy.delete.Some? {
        expected := expected + {DeleteName(clusterName, mappings[i].name)};
      }
    }
    assert mappings[..|mappings|] == mappings;
  }

  /** The deletion loop: one Delete per name, in order; a failed Delete does not stop the loop. */
  method DeleteEach(store: Store<CronJob>, namespace: string, names: seq<string>)
    modifies store
    ensures store.State() == DeleteAll(old(store.State()), namespace, names)
  {
    for i := 0 to |names|
      invariant store.State() == DeleteAll(old(store.State()), namespace, names[..i])
    {
      assert names[..i + 1][..i] == names[..i];
      // A not-found answer is ignored and any other failure is only logged.
      var _ := store.Delete(ObjectKey(namespace, names[i]));
    }
    assert names[..|names|] == names;
  }

  method RemoveCronJobsForMappings(store: Store<CronJob>, cluster: Cluster, mappings: seq<Mapping>, policies: map<string, Policy>)
    returns (err: Option<Error>)
    modifies store
    ensures (store.State(), err) == Cleanup(old(store.State()), cluster, mappings, policies, store.labelsOf)
  {
    var expected := CollectExpected(cluster.name, mappings, policies);
    var listed := store.List(cluster.namespace, ImLabels);
    if listed.Failed? {
      return Some(Api(listed.err));
    }
    var existing := listed.value;
    DeleteEach(store, cluster.namespace, SortedNames(existing - expected));
    return None;
  }
}

=== FILE: reconcile.dfy ===
/**
 * The reconciler's entry points: one per derived object (rollover job,
 * curation job, scripts config map), each gating on its phase, building the
 * desired object and handing it to the converger; and the properties that
 * tie the builder, the converger and orphan cleanup together.
 */
module IndexManagement {
  import opened Wrappers
  import opened Kube
  import opened Store
  import opened Sameness
  import opened Converger
  import opened ConvergerProperties
  import opened Builder
  import opened Orphans

  /**
   * ReconcileRolloverCronjob: without a hot phase, success and no store call;
   * a schedule or serialization error is returned before any store call;
   * otherwise the built job goes through create-or-update.
   */
  method ReconcileRolloverCronjob(store: Store<CronJob>, collab: Collaborators, cluster: Cluster, policy: Policy,
                                  mapping: Mapping, primaryShards: int) returns (err: Option<Error>)
    modifies store
    ensures policy.hot.None? ==> err == None && store.State() == old(store.State())
    ensures var d := RolloverDesired(collab, cluster, policy, mapping, primaryShards);
      (d.Fail? ==> err == Some(d.err) && store.State() == old(store.State())) &&
      (d.Build? ==> (store.State(), err) == CreateOrUpdate(old(store.State()), JobKey(d.job), d.job, CronJobConvergence(collab.cmp)))
  {
    var desired := RolloverDesired(collab, cluster, policy, mapping, primaryShards);
    match desired
    case Skip =>
      return None;
    case Fail(e) =>
      return Some(e);
    case Build(job) =>
      err := ReconcileCronJob(store, job, collab.cmp);
  }

  /**
   * ReconcileCurationCronjob: without a delete phase, success and no store
   * call; a schedule or min-age error is returned before any store call;
   * otherwise the built job goes through create-or-update.
   */
  method ReconcileCurationCronjob(store: Store<CronJob>, collab: Collaborators, cluster: Cluster, policy: Policy,
                                  mapping: Mapping, primaryShards: int) returns (err: Option<Error>)
    modifies store
    ensures policy.delete.None? ==> err == None && store.State() == old(store.State())
    ensures var d := CurationDesired(collab, cluster, policy, mapping);
      (d.Fail? ==> err == Some(d.err) && store.State() == old(store.State())) &&
      (d.Build? ==> (store.State(), err) == CreateOrUpdate(old(store.State()), JobKey(d.job), d.job, CronJobConvergence(collab.cmp)))
  {
    var desired := CurationDesired(collab, cluster, policy, mapping);
    match desired
    case Skip =>
      return None;
    case Fail(e) =>
      return Some(e);
    case Build(job) =>
      err := ReconcileCronJob(store, job, collab.cmp);
  }

  /** ReconcileCurationConfigmap: create-or-update of the scripts config map, compared by its data. */
  method ReconcileCurationConfigmap(store: Store<ConfigMap>, cluster: Cluster, scripts: map<string, string>) returns (err: Option<Error>)
    modifies store
    ensures var desired := ScriptsConfigMap(cluster, scripts);
      (store.State(), err) == CreateOrUpdate(old(store.State()), ConfigMapKey(desired), desired, ConfigMapConvergence())
  {
    var desired := ScriptsConfigMap(cluster, scripts);
    err := ReconcileConfigMap(store, desired);
  }

  /**
   * Every job an entry point would reconcile for one of the mappings bears
   * an expected name in the cluster's namespace, so cleanup with the same
   * mappings and policies never deletes it.
   */
  lemma ReconciledJobsSurviveCleanup(
    st: StoreState<CronJob>, collab: Collaborators, cluster: Cluster, mappings: seq<Mapping>,
    policies: map<string, Policy>, labelsOf: CronJob -> Labels, i: nat, primaryShards: int, job: CronJob)
    requires i < |mappings|
    requires var policy := PolicyFor(policies, mappings[i].policyRef);
      RolloverDesired(collab, cluster, policy, mappings[i], primaryShards) == Build(job) ||
      CurationDesired(collab, cluster, policy, mappings[i]) == Build(job)
    requires JobKey(job) in st.objects
    ensures job.meta.name in ExpectedNames(cluster.name, mappings, policies)
    ensures var r := Cleanup(st, cluster, mappings, policies, labelsOf);
      JobKey(job) in r.0.objects && r.0.objects[JobKey(job)] == st.objects[JobKey(job)]
  {
    var policy := PolicyFor(policies, mappings[i].policyRef);
    ExpectedNamesIff(cluster.name, mappings, policies, job.meta.name);
    if RolloverDesired(collab, cluster, policy, mappings[i], primaryShards) == Build(job) {
      assert ExpectsRollover(cluster.name, mappings[i], policies, job.meta.name);
    } else {
      assert ExpectsDelete(cluster.name, mappings[i], policies, job.meta.name);
    }
    CleanupOutcome(st, cluster, mappings, policies, labelsOf);
  }

  /**
   * Idempotence end to end: with reflexive comparators and no interference,
   * reconciling a built job twice creates it once, and the second pass
   * issues a Create and a Get only, writes nothing and changes nothing.
   */
  lemma BuiltJobSecondPassIdempotent(st: StoreState<CronJob>, cmp: Comparators, job: CronJob)
    requires Reflexive(cmp)
    requires JobKey(job) !in st.objects && st.outcomes == []
    ensures var key := JobKey(job);
      var first := CreateOrUpdate(st, key, job, CronJobConvergence(cmp));
      var second := CreateOrUpdate(first.0, key, job, CronJobConvergence(cmp));
      first.1 == None && first.0.objects == st.objects[key := job] &&
      second.1 == None && second.0.objects == first.0.objects &&
      second.0.calls == first.0.calls + [CreateCall(key), GetCall(key)]
  {
    SelfSame(cmp, job);
    SecondPassIdempotent(st, JobKey(job), job, CronJobConvergence(cmp));
  }

  /** The same for the scripts config map, whose comparison needs no assumption. */
  lemma ConfigMapSecondPassIdempotent(st: StoreState<ConfigMap>, cluster: Cluster, scripts: map<string, string>)
    requires ConfigMapKey(ScriptsConfigMap(cluster, scripts)) !in st.objects && st.outcomes == []
    ensures var desired := ScriptsConfigMap(cluster, scripts);
      var key := ConfigMapKey(desired);
      var first := CreateOrUpdate(st, key, desired, ConfigMapConvergence());
      var second := CreateOrUpdate(first.0, key, desired, ConfigMapConvergence());
      first.1 == None && first.0.objects == st.objects[key := desired] &&
      second.1 == None && second.0.objects == first.0.objects &&
      second.0.calls == first.0.calls + [CreateCall(key), GetCall(key)]
  {
    var desired := ScriptsConfigMap(cluster, scripts);
    SecondPassIdempotent(st, ConfigMapKey(desired), desired, ConfigMapConvergence());
  }

  /**
   * A stored config map with other data is overwritten with the desired data
   * in one Update, keeping its own metadata.
   */
  lemma ConfigMapDataReplaced(st: StoreState<ConfigMap>, cluster: Cluster, scripts: map<string, string>)
    requires st.outcomes == []
    requires var key := ConfigMapKey(ScriptsConfigMap(cluster, scripts));
      key in st.objects && st.objects[key].data != scripts
    ensures var key := ConfigMapKey(ScriptsConfigMap(cluster, scripts));
      var current := st.objects[key];
      var r := CreateOrUpdate(st, key, ScriptsConfigMap(cluster, scripts), ConfigMapConvergence());
      r.1 == None &&
      r.0.objects == st.objects[key := ConfigMap(current.meta, scripts)] &&
      r.0.calls == st.calls + [CreateCall(key), GetCall(key), UpdateCall(key, ConfigMap(current.meta, scripts))]
  {
  }

  /** The job an entry point builds for a mapping under a policy, when it builds one. */
  predicate Built(collab: Collaborators, cluster: Cluster, policy: Policy, mapping: Mapping, primaryShards: int, job: CronJob) {
    RolloverDesired(collab, cluster, policy, mapping, primaryShards) == Build(job) ||
    CurationDesired(collab, cluster, policy, mapping) == Build(job)
  }

  /**
   * Against a built job (one container, suspend unset) the update path ends
   * in the sameness check's index panic exactly when the stored job passes
   * the placement and schedule checks, has two or more containers and its
   * first container matches; the store is then left as it was.
   */
  lemma StoredJobPanicIff(st: StoreState<CronJob>, collab: Collaborators, cluster: Cluster, policy: Policy,
                          mapping: Mapping, primaryShards: int, job: CronJob)
    requires Built(collab, cluster, policy, mapping, primaryShards, job)
    requires JobKey(job) in st.objects && st.outcomes == []
    ensures var current := st.objects[JobKey(job)];
      var r := CreateOrUpdate(st, JobKey(job), job, CronJobConvergence(collab.cmp));
      (r.1 == Some(IndexPanic) <==>
        PlacementSame(collab.cmp, current, job) && current.spec.schedule == job.spec.schedule &&
        |Containers(current)| >= 2 && ContainerSame(collab.cmp, Containers(current)[0], Containers(job)[0])) &&
      (r.1 == Some(IndexPanic) ==> r.0.objects == st.objects)
  {
    var key := JobKey(job);
    var current := st.objects[key];
    assert |Containers(job)| == 1 && job.spec.suspend.None?;
    CronJobPanicIff(collab.cmp, current, job);
  }

  /**
   * Because the container count is never compared, a stored job stripped of
   * all its containers is judged the same as the built one once placement
   * and schedule agree: the update path writes nothing and reports success.
   */
  lemma StrippedJobNeverRepaired(st: StoreState<CronJob>, collab: Collaborators, cluster: Cluster, policy: Policy,
                                 mapping: Mapping, primaryShards: int, job: CronJob)
    requires Built(collab, cluster, policy, mapping, primaryShards, job)
    requires JobKey(job) in st.objects && st.outcomes == []
    requires var current := st.objects[JobKey(job)];
      Containers(current) == [] && PlacementSame(collab.cmp, current, job) && current.spec.schedule == job.spec.schedule
    ensures var r := CreateOrUpdate(st, JobKey(job), job, CronJobConvergence(collab.cmp));
      r.1 == None && r.0.objects == st.objects &&
      r.0.calls == st.calls + [CreateCall(JobKey(job)), GetCall(JobKey(job))] &&
      Containers(r.0.objects[JobKey(job)]) != Containers(job)
  {
    var key := JobKey(job);
    assert |Containers(job)| == 1 && job.spec.suspend.None?;
    CountNeverCompared(collab.cmp, st.objects[key], job);
  }
}

=== FILE: sameness.dfy ===
/**
 * When a stored object counts as "the same" as the desired one, so that the
 * converger writes nothing. Cron jobs are compared field by field, exactly
 * as areCronJobsSame does it, quirks included; config maps by their data.
 */
module Sameness {
  import opened Wrappers
  import opened Kube

  /**
   * The comparators the cron-job check delegates to. Their bodies are not
   * part of this model: they are parameters, and nothing is assumed of them
   * except where a lemma says so in its requires.
   */
  datatype Comparators = Comparators(
    stringMapsSame: (Labels, Labels) -> bool,
    tolerationsSame: (seq<Toleration>, seq<Toleration>) -> bool,
    resourcesSame: (Resources, Resources) -> bool,
    envSame: (seq<EnvVar>, seq<EnvVar>) -> bool)

  /** Every comparator finds a value the same as itself. */
  ghost predicate Reflexive(cmp: Comparators) {
    (forall m :: cmp.stringMapsSame(m, m)) &&
    (forall t :: cmp.tolerationsSame(t, t)) &&
    (forall r :: cmp.resourcesSame(r, r)) &&
    (forall e :: cmp.envSame(e, e))
  }

  /**
   * The answer of a sameness check. `IndexOutOfRange` is the Go runtime
   * panic raised when the check indexes past the end of the desired job's
   * containers.
   */
  datatype Verdict = Same | Different | IndexOutOfRange

  predicate ContainerSame(cmp: Comparators, c: Container, other: Container) {
    c.name == other.name && c.image == other.image &&
    c.command == other.command && c.args == other.args &&
    cmp.resourcesSame(c.resources, other.resources) &&
    cmp.envSame(c.env, other.env)
  }

  /** The verdict of the container loop from index `i` on: rhs is indexed by lhs's indices. */
  function ContainersVerdict(cmp: Comparators, lc: seq<Container>, rc: seq<Container>, i: nat): Verdict
    requires i <= |lc|
    decreases |lc| - i
  {
    if i == |lc| then Same
    else if i >= |rc| then IndexOutOfRange
    else if !ContainerSame(cmp, lc[i], rc[i]) then Different
    else ContainersVerdict(cmp, lc, rc, i + 1)
  }

  /** The checks made before the schedule: selectors and tolerations. */
  predicate PlacementSame(cmp: Comparators, lhs: CronJob, rhs: CronJob) {
    cmp.stringMapsSame(Pod(lhs).nodeSelector, Pod(rhs).nodeSelector) &&
    cmp.tolerationsSame(Pod(lhs).tolerations, Pod(rhs).tolerations)
  }

  predicate SuspendConflicts(lhs: CronJob, rhs: CronJob) {
    lhs.spec.suspend.Some? && rhs.spec.suspend.Some? && lhs.spec.suspend.value != rhs.spec.suspend.value
  }

  /** True when the check reaches the schedule and finds it different: then lhs adopts rhs's schedule. */
  predicate AdoptsSchedule(cmp: Comparators, lhs: CronJob, rhs: CronJob) {
    PlacementSame(cmp, lhs, rhs) && lhs.spec.schedule != rhs.spec.schedule
  }

  /** The cron-job sameness check, in the order the checks are made. */
  function CronJobVerdict(cmp: Comparators, lhs: CronJob, rhs: CronJob): Verdict {
    var lc := Containers(lhs);
    // The count check compares lhs's container count with itself.
    if |lc| != |lc| then Different
    else if !cmp.stringMapsSame(Pod(lhs).nodeSelector, Pod(rhs).nodeSelector) then Different
    else if !cmp.tolerationsSame(Pod(lhs).tolerations, Pod(rhs).tolerations) then Different
    else if lhs.spec.schedule != rhs.spec.schedule then Different
    else if SuspendConflicts(lhs, rhs) then Different
    else ContainersVerdict(cmp, lc, Containers(rhs), 0)
  }

  /**
   * areCronJobsSame: the verdict, and lhs as the check leaves it (the check
   * overwrites lhs's schedule with rhs's when it finds them different).
   */
  method AreCronJobsSame(cmp: Comparators, lhs: CronJob, rhs: CronJob) returns (verdict: Verdict, lhsAfter: CronJob)
    ensures verdict == CronJobVerdict(cmp, lhs, rhs)
    ensures lhsAfter == if AdoptsSchedule(cmp, lhs, rhs) then WithSchedule(lhs, rhs.spec.schedule) else lhs
    ensures AdoptsSchedule(cmp, lhs, rhs) ==> verdict == Different && lhsAfter.spec.schedule == rhs.spec.schedule
  {
    lhsAfter := lhs;
    var lc, rc := Containers(lhs), Containers(rhs);
    if |lc| != |lc| {
      return Different, lhsAfter;
    }
    if !cmp.stringMapsSame(Pod(lhs).nodeSelector, Pod(rhs).nodeSelector) {
      return Different, lhsAfter;
    }
    if !cmp.tolerationsSame(Pod(lhs).tolerations, Pod(rhs).tolerations) {
      return Different, lhsAfter;
    }
    if lhs.spec.schedule != rhs.spec.schedule {
      lhsAfter := WithSchedule(lhsAfter, rhs.spec.schedule);
      return Different, lhsAfter;
    }
    if lhs.spec.suspend.Some? && rhs.spec.suspend.Some? && lhs.spec.suspend.value != rhs.spec.suspend.value {
      return Different, lhsAfter;
    }
    for i := 0 to |lc|
      invariant ContainersVerdict(cmp, lc, rc, i) == ContainersVerdict(cmp, lc, rc, 0)
    {
      if i >= |rc| {
        return IndexOutOfRange, lhsAfter;
      }
      var container, other := lc[i], rc[i];
      if container.name != other.name {
        return Different, lhsAfter;
      }
      if container.image != other.image {
        return Different, lhsAfter;
      }
      if container.command != other.command {
        return Different, lhsAfter;
      }
      if container.args != other.args {
        return Different, lhsAfter;
      }
      if !cmp.resourcesSame(container.resources, other.resources) {
        return Different, lhsAfter;
      }
      if !cmp.envSame(container.env, other.env) {
        return Different, lhsAfter;
      }
    }
    return Same, lhsAfter;
  }

  lemma {:induction false} ContainersVerdictIff(cmp: Comparators, lc: seq<Container>, rc: seq<Container>, i: nat)
    requires i <= |lc|
    ensures ContainersVerdict(cmp, lc, rc, i) == Same <==>
      i == |lc| || (|lc| <= |rc| && forall j :: i <= j < |lc| ==> ContainerSame(cmp, lc[j], rc[j]))
    ensures ContainersVerdict(cmp, lc, rc, i) == IndexOutOfRange <==>
      i < |lc| && |rc| < |lc| && forall j :: i <= j < |rc| ==> ContainerSame(cmp, lc[j], rc[j])
    decreases |lc| - i
  {
    if i < |lc| && i < |rc| {
      ContainersVerdictIff(cmp, lc, rc, i + 1);
    }
  }

  /**
   * The check says "same" exactly when every check passes: placement,
   * schedule, suspend (when both set), and each of lhs's containers against
   * rhs's container at the same index. No count comparison survives.
   */
  lemma CronJobSameIff(cmp: Comparators, lhs: CronJob, rhs: CronJob)
    ensures CronJobVerdict(cmp, lhs, rhs) == Same <==>
      PlacementSame(cmp, lhs, rhs) && lhs.spec.schedule == rhs.spec.schedule && !SuspendConflicts(lhs, rhs) &&
      |Containers(lhs)| <= |Containers(rhs)| &&
      forall j :: 0 <= j < |Containers(lhs)| ==> ContainerSame(cmp, Containers(lhs)[j], Containers(rhs)[j])
  {
    ContainersVerdictIff(cmp, Containers(lhs), Containers(rhs), 0);
  }

  /** The check panics exactly when every earlier check passes and lhs has more containers than rhs. */
  lemma CronJobPanicIff(cmp: Comparators, lhs: CronJob, rhs: CronJob)
    ensures CronJobVerdict(cmp, lhs, rhs) == IndexOutOfRange <==>
      PlacementSame(cmp, lhs, rhs) && lhs.spec.schedule == rhs.spec.schedule && !SuspendConflicts(lhs, rhs) &&
      |Containers(rhs)| < |Containers(lhs)| &&
      forall j :: 0 <= j < |Containers(rhs)| ==> ContainerSame(cmp, Containers(lhs)[j], Containers(rhs)[j])
  {
    ContainersVerdictIff(cmp, Containers(lhs), Containers(rhs), 0);
  }

  /**
   * The count check can never fail: a stored job with no containers is
   * "the same" as a desired job with any number of containers, as long as
   * placement, schedule and suspend agree.
   */
  lemma CountNeverCompared(cmp: Comparators, lhs: CronJob, rhs: CronJob)
    requires Containers(lhs) == []
    requires PlacementSame(cmp, lhs, rhs) && lhs.spec.schedule == rhs.spec.schedule && !SuspendConflicts(lhs, rhs)
    ensures CronJobVerdict(cmp, lhs, rhs) == Same
  {
  }

  /**
   * Suspend only matters when both sides set it: against a job whose
   * suspend flag is unset (as every built job's is), the stored job's flag
   * never affects the verdict.
   */
  lemma SuspendComparedOnlyWhenBothSet(cmp: Comparators, lhs: CronJob, rhs: CronJob, flag: Option<bool>)
    requires rhs.spec.suspend.None?
    ensures CronJobVerdict(cmp, lhs, rhs) == CronJobVerdict(cmp, lhs.(spec := lhs.spec.(suspend := flag)), rhs)
  {
  }

  /** A cron job is the same as itself whenever the comparators are reflexive. */
  lemma SelfSame(cmp: Comparators, job: CronJob)
    requires Reflexive(cmp)
    ensures CronJobVerdict(cmp, job, job) == Same
  {
    CronJobSameIff(cmp, job, job);
  }

  /** A stored job whose spec differs from the desired one only in its schedule is judged different and adopts that schedule. */
  lemma ScheduleDriftDetected(cmp: Comparators, lhs: CronJob, rhs: CronJob)
    requires Reflexive(cmp)
    requires lhs.spec == rhs.spec.(schedule := lhs.spec.schedule) && lhs.spec.schedule != rhs.spec.schedule
    ensures CronJobVerdict(cmp, lhs, rhs) == Different && AdoptsSchedule(cmp, lhs, rhs)
    ensures WithSchedule(lhs, rhs.spec.schedule).spec == rhs.spec
  {
  }

  // Config maps: plain equality of the data maps.

  function ConfigMapVerdict(current: ConfigMap, desired: ConfigMap): (v: Verdict)
    ensures v != IndexOutOfRange
    ensures v == Same <==> current.data == desired.data
  {
    if desired.data == current.data then Same else Different
  }
}

=== FILE: store.dfy ===
/**
 * The remote, versioned object store as the reconciler sees it through its
 * API client: five primitives (Create, Get, Update, Delete, List), each of
 * which answers with success or a classified error.
 *
 * Other actors are not threads here. Each store holds a script of outcomes,
 * one consumed per call: `Proceed` lets the store answer from its contents,
 * `Reject(e)` makes the call fail with `e` and leaves the contents alone
 * (a concurrent writer causing a version conflict, a permission or network
 * failure). An exhausted script means every further call proceeds. Every
 * call is appended to a log, so properties can speak of which calls were
 * issued and in which order.
 */
module Store {
  import opened Wrappers
  import opened Kube

  datatype ApiError = AlreadyExists | NotFound | Conflict | Other

  datatype Outcome = Proceed | Reject(err: ApiError)

  datatype ObjectKey = ObjectKey(namespace: string, name: string)

  datatype Call<T> =
    | CreateCall(key: ObjectKey)
    | GetCall(key: ObjectKey)
    | UpdateCall(key: ObjectKey, written: T)
    | DeleteCall(key: ObjectKey)
    | ListCall(namespace: string)

  datatype Response<T> = Ok(value: T) | Failed(err: ApiError)

  datatype StoreState<T> = StoreState(objects: map<ObjectKey, T>, outcomes: seq<Outcome>, calls: seq<Call<T>>)

  /** The outcome the next call meets. */
  function Next(outcomes: seq<Outcome>): Outcome {
    if outcomes == [] then Proceed else outcomes[0]
  }

  function Rest(outcomes: seq<Outcome>): seq<Outcome> {
    if outcomes == [] then [] else outcomes[1..]
  }

  /** Logs a call and consumes one scripted outcome. */
  function Issue<T>(st: StoreState<T>, call: Call<T>): (r: StoreState<T>)
    ensures r.objects == st.objects && r.calls == st.calls + [call]
  {
    st.(outcomes := Rest(st.outcomes), calls := st.calls + [call])
  }

  /** True when every label of the selector is on the object with the same value. */
  predicate Selects(selector: Labels, labels: Labels) {
    forall k :: k in selector ==> k in labels && labels[k] == selector[k]
  }

  function CreateStep<T>(st: StoreState<T>, key: ObjectKey, obj: T): (r: (StoreState<T>, Option<ApiError>))
    ensures r.0.calls == st.calls + [CreateCall(key)]
    ensures r.1.None? <==> Next(st.outcomes) == Proceed && key !in st.objects
    ensures r.1.None? ==> r.0.objects == st.objects[key := obj]
    ensures r.1.Some? ==> r.0.objects == st.objects
    ensures Next(st.outcomes) == Proceed && key in st.objects ==> r.1 == Some(AlreadyExists)
  {
    var s := Issue(st, CreateCall(key));
    match Next(st.outcomes)
    case Reject(e) => (s, Some(e))
    case Proceed =>
      if key in st.objects then (s, Some(AlreadyExists))
      else (s.(objects := st.objects[key := obj]), None)
  }

  function GetStep<T>(st: StoreState<T>, key: ObjectKey): (r: (StoreState<T>, Response<T>))
    ensures r.0.objects == st.objects && r.0.calls == st.calls + [GetCall(key)]
    ensures r.1.Ok? <==> Next(st.outcomes) == Proceed && key in st.objects
    ensures r.1.Ok? ==> r.1.value == st.objects[key]
    ensures Next(st.outcomes) == Proceed && key !in st.objects ==> r.1 == Failed(NotFound)
  {
    var s := Issue(st, GetCall(key));
    match Next(st.outcomes)
    case Reject(e) => (s, Failed(e))
    case Proceed =>
      if key in st.objects then (s, Ok(st.objects[key])) else (s, Failed(NotFound))
  }

  function UpdateStep<T>(st: StoreState<T>, key: ObjectKey, obj: T): (r: (StoreState<T>, Option<ApiError>))
    ensures r.0.calls == st.calls + [UpdateCall(key, obj)]
    ensures r.1.None? <==> Next(st.outcomes) == Proceed && key in st.objects
    ensures r.1.None? ==> r.0.objects == st.objects[key := obj]
    ensures r.1.Some? ==> r.0.objects == st.objects
  {
    var s := Issue(st, UpdateCall(key, obj));
    match Next(st.outcomes)
    case Reject(e) => (s, Some(e))
    case Proceed =>
      if key in st.objects then (s.(objects := st.objects[key := obj]), None)
      else (s, Some(NotFound))
  }

  function DeleteStep<T>(st: StoreState<T>, key: ObjectKey): (r: (StoreState<T>, Option<ApiError>))
    ensures r.0.calls == st.calls + [DeleteCall(key)]
    ensures r.1.None? <==> Next(st.outcomes) == Proceed && key in st.objects
    ensures r.1.None? ==> r.0.objects == st.objects - {key}
    ensures r.1.Some? ==> r.0.objects == st.objects
  {
    var s := Issue(st, DeleteCall(key));
    match Next(st.outcomes)
    case Reject(e) => (s, Some(e))
    case Proceed =>
      if key in st.objects then (s.(objects := st.objects - {key}), None)
      else (s, Some(NotFound))
  }

  /** The names of the objects in `namespace` whose labels the selector matches. */
  function Listed<T>(objects: map<ObjectKey, T>, namespace: string, selector: Labels, labelsOf: T -> Labels): (names: set<string>)
    ensures forall k :: k in objects && k.namespace == namespace && Selects(selector, labelsOf(objects[k])) ==> k.name in names
    ensures forall n :: n in names ==>
      ObjectKey(namespace, n) in objects && Selects(selector, labelsOf(objects[ObjectKey(namespace, n)]))
  {
    set k | k in objects && k.namespace == namespace && Selects(selector, labelsOf(objects[k])) :: k.name
  }

  function ListStep<T>(st: StoreState<T>, namespace: string, selector: Labels, labelsOf: T -> Labels): (r: (StoreState<T>, Response<set<string>>))
    ensures r.0.objects == st.objects && r.0.calls == st.calls + [ListCall(namespace)]
    ensures r.1.Ok? <==> Next(st.outcomes) == Proceed
    ensures r.1.Ok? ==> r.1.value == Listed(st.objects, namespace, selector, labelsOf)
  {
    var s := Issue(st, ListCall(namespace));
    match Next(st.outcomes)
    case Reject(e) => (s, Failed(e))
    case Proceed => (s, Ok(Listed(st.objects, namespace, selector, labelsOf)))
  }

  /** The API client over one kind of object; its fields are the store's whole state. */
  class Store<T> {
    var objects: map<ObjectKey, T>
    var outcomes: seq<Outcome>
    var calls: seq<Call<T>>
    /** Where an object keeps its labels (its metadata), used by List's selector. */
    const labelsOf: T -> Labels

    constructor (objects: map<ObjectKey, T>, outcomes: seq<Outcome>, labelsOf: T -> Labels)
      ensures State() == StoreState(objects, outcomes, []) && this.labelsOf == labelsOf
    {
      this.objects := objects;
      this.outcomes := outcomes;
      this.calls := [];
      this.labelsOf := labelsOf;
    }

    function State(): StoreState<T>
      reads this
    {
      StoreState(objects, outcomes, calls)
    }

    method Create(key: ObjectKey, obj: T) returns (err: Option<ApiError>)
      modifies this
      ensures (State(), err) == CreateStep(old(State()), key, obj)
    {
      var next := Next(outcomes);
      outcomes, calls := Rest(outcomes), calls + [CreateCall(key)];
      if next.Reject? {
        err := Some(next.err);
      } else if key in objects {
        err := Some(AlreadyExists);
      } else {
        objects := objects[key := obj];
        err := None;
      }
    }

    method Get(key: ObjectKey) returns (r: Response<T>)
      modifies this
      ensures (State(), r) == GetStep(old(State()), key)
    {
      var next := Next(outcomes);
      outcomes, calls := Rest(outcomes), calls + [GetCall(key)];
      if next.Reject? {
        r := Failed(next.err);
      } else if key in objects {
        r := Ok(objects[key]);
      } else {
        r := Failed(NotFound);
      }
    }

    method Update(key: ObjectKey, obj: T) returns (err: Option<ApiError>)
      modifies this
      ensures (State(), err) == UpdateStep(old(State()), key, obj)
    {
      var next := Next(outcomes);
      outcomes, calls := Rest(outcomes), calls + [UpdateCall(key, obj)];
      if next.Reject? {
        err := Some(next.err);
      } else if key in objects {
        objects := objects[key := obj];
        err := None;
      } else {
        err := Some(NotFound);
      }
    }

    method Delete(key: ObjectKey) returns (err: Option<ApiError>)
      modifies this
      ensures (State(), err) == DeleteStep(old(State()), key)
    {
      var next := Next(outcomes);
      outcomes, calls := Rest(outcomes), calls + [DeleteCall(key)];
      if next.Reject? {
        err := Some(next.err);
      } else if key in objects {
        objects := objects - {key};
        err := None;
      } else {
        err := Some(NotFound);
      }
    }

    method List(namespace: string, selector: Labels) returns (r: Response<set<string>>)
      modifies this
      ensures (State(), r) == ListStep(old(State()), namespace, selector, labelsOf)
    {
      var next := Next(outcomes);
      outcomes, calls := Rest(outcomes), calls + [ListCall(namespace)];
      if next.Reject? {
        r := Failed(next.err);
      } else {
        r := Ok(Listed(objects, namespace, selector, labelsOf));
      }
    }
  }
}

=== FILE: strings.dfy ===
/**
 * The two pieces of string handling the reconciler relies on from Go's
 * library: the ascending order in which a string set lists its members
 * (byte-wise lexicographic order, which for well-formed UTF-8 is the order
 * of code points compared here), and the decimal rendering of an unsigned
 * integer.
 */
module Strings {

  /** Strict lexicographic order on strings. */
  predicate Less(a: string, b: string)
    decreases |a|
  {
    |b| > 0 && (|a| == 0 || a[0] < b[0] || (a[0] == b[0] && Less(a[1..], b[1..])))
  }

  lemma {:induction false} LessIrreflexive(a: string)
    ensures !Less(a, a)
    decreases |a|
  {
    if |a| > 0 {
      LessIrreflexive(a[1..]);
    }
  }

  lemma {:induction false} LessTransitive(a: string, b: string, c: string)
    requires Less(a, b) && Less(b, c)
    ensures Less(a, c)
    decreases |a|
  {
    if |a| > 0 && a[0] == b[0] && b[0] == c[0] {
      LessTransitive(a[1..], b[1..], c[1..]);
    }
  }

  lemma {:induction false} LessTotal(a: string, b: string)
    ensures a == b || Less(a, b) || Less(b, a)
    decreases |a|
  {
    if |a| > 0 && |b| > 0 && a[0] == b[0] {
      LessTotal(a[1..], b[1..]);
      if a[1..] == b[1..] {
        assert a == [a[0]] + a[1..] && b == [b[0]] + b[1..];
      }
    }
  }

  lemma LessAsymmetric(a: string, b: string)
    requires Less(a, b)
    ensures !Less(b, a) && a != b
  {
    LessIrreflexive(a);
    if Less(b, a) {
      LessTransitive(a, b, a);
    }
  }

  /** A sequence in strictly ascending order (hence without duplicates). */
  predicate StrictlySorted(s: seq<string>) {
    forall i, j :: 0 <= i < j < |s| ==> Less(s[i], s[j])
  }

  /** `s` lists exactly the members of `names`, in ascending order. */
  ghost predicate SortedListOf(s: seq<string>, names: set<string>) {
    StrictlySorted(s) && (forall x :: x in s <==> x in names)
  }

  predicate IsLeast(m: string, names: set<string>) {
    m in names && forall x :: x in names ==> m == x || Less(m, x)
  }

  lemma {:induction false} LeastExists(names: set<string>)
    requires names != {}
    ensures exists m :: IsLeast(m, names)
    decreases |names|
  {
    var y :| y in names;
    var rest := names - {y};
    if rest == {} {
      assert names == {y};
      assert IsLeast(y, names);
    } else {
      LeastExists(rest);
      var m :| IsLeast(m, rest);
      LessTotal(y, m);
      if Less(y, m) {
        forall x | x in names ensures y == x || Less(y, x) {
          if x != y && x != m {
            LessTransitive(y, m, x);
          }
        }
        assert IsLeast(y, names);
      } else {
        assert IsLeast(m, names);
      }
    }
  }

  lemma LeastUnique(m: string, m': string, names: set<string>)
    requires IsLeast(m, names) && IsLeast(m', names)
    ensures m == m'
  {
    if m != m' {
      LessAsymmetric(m, m');
    }
  }

  /** The smallest member of a non-empty set. */
  function Least(names: set<string>): (m: string)
    requires names != {}
    ensures IsLeast(m, names)
  {
    LeastExists(names);
    forall m, m' | IsLeast(m, names) && IsLeast(m', names) ensures m == m' {
      LeastUnique(m, m', names);
    }
    var m :| IsLeast(m, names);
    m
  }

  /** The members of a string set as an ascending list, as a Go string set's List() returns them. */
  function SortedNames(names: set<string>): (s: seq<string>)
    ensures SortedListOf(s, names) && |s| == |names|
    decreases |names|
  {
    if names == {} then []
    else
      var m := Least(names);
      var rest := SortedNames(names - {m});
      assert forall j :: 0 <= j < |rest| ==> Less(m, rest[j]) by {
        forall j | 0 <= j < |rest| ensures Less(m, rest[j]) {
          assert rest[j] in names - {m};
        }
      }
      [m] + rest
  }

  /** An ascending list of a set is unique: the deletion order is fixed by the set. */
  lemma {:induction false} SortedListUnique(s: seq<string>, t: seq<string>, names: set<string>)
    requires SortedListOf(s, names) && SortedListOf(t, names)
    ensures s == t
    decreases |s|
  {
    assert s != [] ==> s[0] in t;
    assert t != [] ==> t[0] in s;
    if s != [] && t != [] {
      forall x | x in names ensures s[0] == x || Less(s[0], x) {
        var i :| 0 <= i < |s| && s[i] == x;
        if i > 0 { assert Less(s[0], s[i]); }
      }
      forall x | x in names ensures t[0] == x || Less(t[0], x) {
        var i :| 0 <= i < |t| && t[i] == x;
        if i > 0 { assert Less(t[0], t[i]); }
      }
      LeastUnique(s[0], t[0], names);
      var rest := names - {s[0]};
      forall x ensures x in s[1..] <==> x in rest {
        if x in s[1..] {
          var i :| 1 <= i < |s| && s[i] == x;
          LessAsymmetric(s[0], s[i]);
        }
        if x in rest {
          var i :| 0 <= i < |s| && s[i] == x;
          assert i != 0;
          assert s[1..][i - 1] == x;
        }
      }
      forall x ensures x in t[1..] <==> x in rest {
        if x in t[1..] {
          var i :| 1 <= i < |t| && t[i] == x;
          LessAsymmetric(t[0], t[i]);
        }
        if x in rest {
          var i :| 0 <= i < |t| && t[i] == x;
          assert i != 0;
          assert t[1..][i - 1] == x;
        }
      }
      SortedListUnique(s[1..], t[1..], rest);
      assert s == [s[0]] + s[1..] && t == [t[0]] + t[1..];
    }
  }

  // Decimal rendering, as strconv.FormatUint(n, 10) produces it.

  function DigitChar(d: nat): (c: char)
    requires d < 10
    ensures '0' <= c <= '9' && (c as int) - ('0' as int) == d
  {
    (('0' as int) + d) as char
  }

  predicate IsDigit(c: char) {
    '0' <= c <= '9'
  }

  /** The decimal digits of `n`, most significant first, without leading zeros. */
  function FormatDecimal(n: nat): (s: string)
    ensures |s| > 0 && (|s| > 1 ==> s[0] != '0')
    ensures forall i :: 0 <= i < |s| ==> IsDigit(s[i])
  {
    if n < 10 then [DigitChar(n)] else FormatDecimal(n / 10) + [DigitChar(n % 10)]
  }

  /** The value of a string of decimal digits. */
  function ParseDecimal(s: string): nat
    requires forall i :: 0 <= i < |s| ==> IsDigit(s[i])
  {
    if s == [] then 0
    else
      var last := s[|s| - 1];
      assert IsDigit(last);
      ParseDecimal(s[..|s| - 1]) * 10 + ((last as int) - ('0' as int))
  }

  /** Reading the rendered digits back yields the number: MIN_AGE carries the milliseconds exactly. */
  lemma {:induction false} DecimalRoundTrip(n: nat)
    ensures ParseDecimal(FormatDecimal(n)) == n
  {
    var s := FormatDecimal(n);
    if n >= 10 {
      DecimalRoundTrip(n / 10);
      assert s[..|s| - 1] == FormatDecimal(n / 10);
    }
  }

  /** Distinct numbers render differently. */
  lemma FormatDecimalInjective(m: nat, n: nat)
    requires FormatDecimal(m) == FormatDecimal(n)
    ensures m == n
  {
    DecimalRoundTrip(m);
    DecimalRoundTrip(n);
  }
}

=== FILE: wrappers.dfy ===
/** An optional value: the model's stand-in for a Go pointer that may be nil. */
module Wrappers {
  datatype Option<+T> = None | Some(value: T)
}
